=== FILE: README.md ===
# env-sensor: a Dafny model of the combined Grafana display loop

`combined-grafana.py` runs an Enviro+ board on a Raspberry Pi. It reads every
sensor and shows the readings on a small LCD. In its "everything" mode it also
publishes them as 24 Prometheus gauges. This project models the program's
logic in Dafny and proves properties of that model:

- **History** (`history.dfy`): the fixed-length per-variable histories, rotated
  by "drop the oldest, append the newest".
- **Thresholds** (`thresholds.dfy`): the four warning limits per variable and
  the five-colour palette of the all-variables grid.
- **Gradient** (`gradient.dfy`): the single-variable graph. Each sample is
  scaled to `(v - min + 1) / (max - min + 1)`, and that value picks the hue
  `(1 - c) * 0.6`.
- **Compensation** (`compensation.dfy`): the five-entry CPU-temperature window
  and the compensation of the probe reading by the factor 2.25.
- **Modes** (`modes.dfy`): the tap-to-advance mode state machine. It has a
  0.5 s debounce and a proximity threshold of 1500, starts in mode 12, and
  takes the mode modulo `len(variables) + 1`.
- **Sensors** (`sensors.dfy`): the readings of one iteration, the light
  stand-in of 1 when something is near, and Python's `int()` truncation.
- **Dashboard** (`dashboard.dfy`): the histories and the CPU window, the value
  each variable receives in an iteration, and the coloured grid.
- **Trace** (`trace.dfy`): the observable events of an iteration: gauge sets,
  history pushes, grid frames, graph frames and waveform frames. Replaying
  a trace applies its pushes to a board and checks that every grid frame
  shows the board as it stands at that point.
- **Cycle** (`cycle.dfy`): the mode-12 pass. It covers the exact order of
  gauge sets, pushes and grid redraws, the value each one carries, and what a
  particulate timeout skips.
- **Loop** (`loop.dfy`): one loop iteration. The mode update comes first,
  then the mode's work. This module also covers runs of iterations.

Sensor values are `real`. The drivers, the clock and the CPU thermometer are
not modelled: each iteration is handed a `Readings` value and a clock reading.
A particulate read that times out is `None`.

Two behaviours of the program are worth knowing up front:

- A history whose samples are all equal scales every sample to 1
  (`Gradient.ConstantHistoryIsOne`).
- The exporter declares and sets 24 gauges (`Trace.Gauge`,
  `Cycle.ShapeGauges`).

## Model

| member | source | states |
|---|---|---|
| History.Push | combined-grafana.py:169 | a push keeps a non-empty history's length, drops the oldest sample, shifts the rest one place and puts the new sample last; an empty history becomes `[v]` |
| History.PushAllKeepsLength | combined-grafana.py:196 | a non-empty history keeps its length over any number of pushes |
| History.PushAllWindow | combined-grafana.py:196 | after pushing `vs`, the history is the last `|buf|` entries of the old history followed by `vs` |
| History.LastSamplesOnly | combined-grafana.py:196 | once at least `|buf|` samples have been pushed, the history is exactly the last `|buf|` of them and nothing of the initial fill is left |
| Thresholds.ScanFrom | combined-grafana.py:215-218 | the limit scan, started from any state that meets its invariant, ends at the index one past the last limit strictly exceeded, or at 0 |
| Thresholds.Bucket | combined-grafana.py:215-218 | the palette index of a value is 0 or one past the last limit it strictly exceeds, and the value is at most every later limit |
| Thresholds.Colour | combined-grafana.py:213-218 | the grid colour is palette entry k exactly when the value lies in band k of its variable's limits (above limit k-1, at most limit k); in particular it is the "dangerously low" blue exactly when the value exceeds no limit of its row |
| Thresholds.ClassificationUnique | combined-grafana.py:215-218 | at most one index is either 0 with no limit exceeded, or one past an exceeded limit with no later limit exceeded |
| Thresholds.BucketIsBand | combined-grafana.py:134-140 | with ascending limits, index k is chosen if and only if the value lies in the band (limit k-1, limit k] described in the comment on the limits table |
| Thresholds.BucketMonotone | combined-grafana.py:215-218 | a larger value never gets a lower palette index |
| Thresholds.LimitsWellFormed | combined-grafana.py:145-161 | ten rows of four ascending limits, and five palette entries |
| Thresholds.TemperatureExamples | combined-grafana.py:134-145 | the temperature row classifies 4 as low-danger, 4.1 and 18 as low, 28.5 and 35 as high and 35.1 as high-danger: the intervals are open below and closed above |
| Thresholds.SentinelRows | combined-grafana.py:148-154 | a row starting with two -1 limits never yields the "low" colour: any value above -1 is at least "normal" |
| Gradient.Min | combined-grafana.py:171 | the result is an element of the history and at most every element |
| Gradient.Max | combined-grafana.py:172 | the result is an element of the history and at least every element |
| Gradient.Scale | combined-grafana.py:173 | a sample within [min, max] scales into (0, 1], and exactly the maximum scales to 1 |
| Gradient.Normalise | combined-grafana.py:171-173 | the scaled history has the history's length, and every entry lies in (0, 1] |
| Gradient.Hue | combined-grafana.py:180 | a scaled sample in (0, 1] gets a hue in [0, 0.6), and the hue is 0 (red) exactly for 1 |
| Gradient.HueSlope | combined-grafana.py:179-180 | the hue falls by exactly 0.6 for every unit the scaled value rises, so the gradient runs from red at 1 towards blue (0.6) at 0 |
| Gradient.Spread | combined-grafana.py:171-173 | the gap between the history's largest and smallest sample is never negative, and it is 0 exactly when every sample is equal |
| Gradient.BluestEnd | combined-grafana.py:173-180 | the bottom of the range scales to `1 / (max - min + 1)` and gets the hue `0.6 (max - min) / (max - min + 1)` |
| Gradient.MaxSampleIsOne | combined-grafana.py:171-180 | the largest sample is drawn at full scale in pure red |
| Gradient.ConstantHistoryIsOne | combined-grafana.py:171-173 | a history of equal samples scales every sample to 1, with no division by zero |
| Gradient.MinSampleIsBluest | combined-grafana.py:171-180 | the smallest sample gets the smallest scaled value, exactly `1 / (max - min + 1)`, and the bluest hue of the graph, exactly `0.6 (max - min) / (max - min + 1)` |
| Gradient.HueRange | combined-grafana.py:173-180 | every hue drawn lies in [0, 0.6) |
| Gradient.NormaliseMonotone | combined-grafana.py:173-180 | scaling keeps the order of samples both ways, strict and non-strict, and a larger sample never gets a bluer hue |
| Gradient.ScaleMonotone | combined-grafana.py:173 | the scale map is strictly increasing, in both directions |
| Compensation.InitialWindow | combined-grafana.py:237 | the start-up window holds five entries whose average is the first CPU reading |
| Compensation.FirstAverage | combined-grafana.py:376-378 | the first average after start-up is four parts the start-up reading and one part the first fresh reading |
| Compensation.Smooth | combined-grafana.py:262-263 | the window keeps five entries, shifts by one and ends with the new reading; its average is the arithmetic mean of the four newest old readings and the new one, and lies between the window's entries |
| Compensation.Compensate | combined-grafana.py:265 | the compensated temperature equals the probe reading exactly when the CPU average does, lies below it exactly when the CPU is warmer, and above it exactly when the CPU is cooler |
| Compensation.CompensateInverse | combined-grafana.py:235-265 | the probe reading is recovered as the weighted mean `(2.25 t + avg) / 3.25` of the result and the average |
| Compensation.CompensateExample | combined-grafana.py:235-265 | probe 20 against CPU average 40 gives 100/9 |
| Compensation.CompensateAntitone | combined-grafana.py:265 | a hotter CPU never raises the compensated temperature |
| Compensation.SumFill | combined-grafana.py:237 | n copies of v sum to n times v |
| Compensation.MeanBetween | combined-grafana.py:263 | the average of a non-empty window lies between some entry below it and some entry above it |
| Compensation.FiveReadingsLater | combined-grafana.py:237-263 | after five iterations the start-up reading is gone: the window is exactly the last five readings and its average is theirs |
| Modes.Next | combined-grafana.py:252-253 | the next mode is always below the modulus; it is the current mode plus one while that stays below the modulus, and 0 when it reaches it |
| Modes.Advance | combined-grafana.py:251-254 | the advance time changes if and only if there is a tap after the debounce interval; then the mode steps once and the time is now; otherwise nothing changes |
| Modes.TwoTapsAdvanceOnce | combined-grafana.py:239-254 | of two taps within 0.5 s, the second does nothing once the first has advanced |
| Modes.QuietWithinDelay | combined-grafana.py:251 | no iteration within the debounce interval of the last advance advances the mode |
| Modes.AtMostOneAdvancePerDelay | combined-grafana.py:239-254 | however many taps fall in one 0.5 s interval, the mode advances at most once |
| Modes.RunLandsBelowCount | combined-grafana.py:251-254 | a run with no advance leaves the state alone, and after any advance the mode is below the modulus |
| Modes.AsWrittenTransitions | combined-grafana.py:240-253 | as written, the modulus is 11: from 12 the first advance goes to 2, 10 wraps to 0, and no advance ever yields 11 or 12 |
| Modes.EverythingModeLost | combined-grafana.py:240-253 | as written, once a run has advanced the mode it is below 11 for good: modes 11 and 12 are never reached again |
| Modes.IterateIsAddition | combined-grafana.py:252-253 | advancing j times from a mode below the modulus is addition modulo the modulus |
| Modes.AsWrittenOrbit | combined-grafana.py:240-253 | as written, the mode after the j-th advance is (j + 1) mod 11 |
| Modes.IntendedOrbit | combined-grafana.py:240-253 | with modulus 13, the (k+1)-th advance shows mode k, so every mode 0 to 12 is visited, and 13 advances return to mode 12 |
| Cycle.LightGaugeAndHistory | combined-grafana.py:393-398 | in the everything pass the light gauge and history 3 receive the lux reading when the proximity is below 10, and 1 otherwise |
| Loop.LightModeValue | combined-grafana.py:280-287 | in the light mode, the sample pushed onto history 3 and graphed is the lux reading when the proximity is below 10, and 1 otherwise |
| Sensors.LightIgnoresLuxWhenNear | combined-grafana.py:283-286 | when something is near, the light value does not depend on the lux reading |
| Sensors.Trunc | combined-grafana.py:439-441 | `int()` truncates toward zero: the result is within one of x, on the side of zero |
| Sensors.TruncOdd | combined-grafana.py:439-441 | truncation is symmetric about zero |
| Dashboard.Init | combined-grafana.py:237-244 | the start state is valid, every history holds `width` ones, and the CPU window's average is the first CPU reading |
| Dashboard.Save | combined-grafana.py:193-196 | `save_data` pushes onto exactly one history and changes nothing else |
| Dashboard.Grid | combined-grafana.py:203-218 | the grid shows each of the ten variables' newest sample, in palette entry k exactly when that sample lies in band k of that variable's own limits |
| Dashboard.Sample | combined-grafana.py:257-340 | a variable has no value in an iteration exactly when it is a particulate variable and the read timed out |
| Cycle.GaugeValue | combined-grafana.py:373-451 | a gauge gets no value in an iteration exactly when it is one of the nine particulate gauges and the read timed out |
| Cycle.TemperatureGroup | combined-grafana.py:375-385 | the temperature group rotates the CPU window, pushes only history 0, emits CPU average, raw and compensated gauges, a push and a grid in that order, and every value matches the gauge table; the grid frame, its last event, shows the grid of the board it leaves, with the new temperature pushed |
| Cycle.Forward | combined-grafana.py:386-424 | a push plus a gauge set of the same reading changes exactly one history, both events carry the table value, and replaying the two events on the old board gives the new one |
| Cycle.PressureGroup | combined-grafana.py:386-389 | the pressure group pushes only history 1, sets the pressure gauge, pushes, then draws the grid; that last frame shows the grid of the board after the push |
| Cycle.HumidityLightGroup | combined-grafana.py:390-399 | humidity and light are each set and pushed (histories 2 and 3), with one grid only after light; that last frame shows the grid of the board after both pushes |
| Cycle.GasGroup | combined-grafana.py:400-410 | the three gas readings in kilo-ohms are each pushed (histories 4 to 6) and then set, followed by one grid showing the board after all three pushes |
| Cycle.ParticulateMassGroup | combined-grafana.py:416-426 | the three mass concentrations are each pushed (histories 7 to 9) and then set, followed by one grid showing the board after all three pushes |
| Cycle.ParticleCountGauges | combined-grafana.py:427-432 | the six particle counts reach only their gauges, with their table values |
| Cycle.ParticulateGroup | combined-grafana.py:411-432 | on a timeout the particulate group does nothing at all; otherwise it emits the mass part and then the count part, and the mass part's grid frame (the seventh event) shows the board after the three mass pushes |
| Cycle.NoiseGroup | combined-grafana.py:433-451 | the noise bands are set truncated after scaling by 128 and the frequency amplitudes after scaling by 32; no gauge gets the amplitude |
| Cycle.Everything | combined-grafana.py:373-451 | the mode-12 pass rotates the CPU window once and pushes every history once with its sample, except histories 7 to 9 on a timeout; its events follow the full or the timeout shape exactly, and every value matches its table; every grid frame shows the grid of the board with exactly the pushes before it applied |
| Cycle.TemperatureGauges | combined-grafana.py:379-383 | the temperature group sets each of its three gauges once and no other gauge |
| Cycle.TemperatureStores | combined-grafana.py:384-385 | the temperature group pushes history 0 once and draws one grid |
| Cycle.PressureGauges | combined-grafana.py:386-387 | the pressure group sets only the pressure gauge, once |
| Cycle.PressureStores | combined-grafana.py:388-389 | the pressure group pushes history 1 once and draws one grid |
| Cycle.HumidityLightGauges | combined-grafana.py:390-397 | the humidity and light group sets those two gauges once each |
| Cycle.HumidityLightStores | combined-grafana.py:392-399 | the humidity and light group pushes histories 2 and 3 once and draws one grid |
| Cycle.GasGauges | combined-grafana.py:400-409 | the gas group sets its three gauges once each |
| Cycle.GasStores | combined-grafana.py:400-410 | the gas group pushes histories 4 to 6 once and draws one grid |
| Cycle.ParticulateMassGauges | combined-grafana.py:417-425 | the mass part sets the pm1, pm2.5 and pm10 gauges once each |
| Cycle.ParticulateMassStores | combined-grafana.py:417-426 | the mass part pushes histories 7 to 9 once and draws one grid |
| Cycle.ParticulateCountGauges | combined-grafana.py:427-432 | the count part sets the six per-litre gauges once each |
| Cycle.ParticulateCountStores | combined-grafana.py:427-432 | the count part pushes nothing and draws no grid |
| Cycle.NoiseGauges | combined-grafana.py:433-451 | the noise part sets its six gauges once each |
| Cycle.NoiseStores | combined-grafana.py:433-451 | the noise part pushes nothing and draws no grid |
| Cycle.ParticulateGauges | combined-grafana.py:411-432 | a successful particulate read sets each of the nine particulate gauges once |
| Cycle.ParticulateStores | combined-grafana.py:411-432 | a successful particulate read pushes histories 7 to 9 once and draws one grid |
| Cycle.GaugeGroupsPartition | combined-grafana.py:32-55 | every one of the 24 gauges belongs to exactly one group |
| Cycle.GaugeTally | combined-grafana.py:373-451 | six groups with those gauge counts set every gauge exactly once in total, or skip exactly the particulate gauges when the particulate group is left out |
| Cycle.StoreTally | combined-grafana.py:373-451 | six groups with those push and grid counts push every history once and draw five grids, or push histories 0 to 6 and draw four grids without the particulate group |
| Cycle.ShapeGauges | combined-grafana.py:32-55 | the full shape sets each of the 24 gauges exactly once; the timeout shape sets the 15 non-particulate gauges once and the others never |
| Cycle.ShapeStores | combined-grafana.py:384-426 | the full shape pushes each of the ten histories once and draws five grids; the timeout shape pushes histories 0 to 6 and draws four |
| Cycle.NoGraphsInCycle | combined-grafana.py:373-451 | neither shape contains a single-variable graph or a waveform frame |
| Cycle.EverythingGauges | combined-grafana.py:373-451 | one mode-12 pass sets every gauge exactly once, except that a particulate timeout skips the nine particulate gauges |
| Cycle.EverythingStores | combined-grafana.py:373-426 | one mode-12 pass pushes every history exactly once, except histories 7 to 9 on a timeout, and draws the grid five times, or four on a timeout |
| Cycle.EverythingDrawsNoGraph | combined-grafana.py:373-451 | a mode-12 pass draws no single-variable graph and no waveform |
| Cycle.AmplitudeNotForwarded | combined-grafana.py:433-451 | the scaled overall amplitude reaches no gauge and no history |
| Cycle.LuxIgnoredWhenNear | combined-grafana.py:393-398 | when something is near, the light gauge and history get 1 and no gauge or history depends on the lux reading |
| Loop.Initial | combined-grafana.py:230-244 | the loop starts in mode 12 with no advance yet, valid histories, and a CPU window that averages to the first reading |
| Loop.WindowFor | combined-grafana.py:259-263 | the CPU window is rotated in modes 0 and 12, the modes that read the CPU temperature, and its average is then the mean of the four newest old readings and the new one; in every other mode the average is unchanged |
| Loop.SingleMode | combined-grafana.py:257-341 | a single-variable mode pushes only its own history and draws that history's scaled graph; a particulate timeout skips both |
| Loop.Dispatch | combined-grafana.py:257-451 | modes 0 to 9 show one variable, 10 and 11 only scroll the waveform, 12 runs the everything pass, and any other mode does nothing; no mode but 12 sets a gauge, and modes from 10 on other than 12 change no history and not the CPU window |
| Loop.Tick | combined-grafana.py:248-451 | an iteration first updates the mode and then does the new mode's work; the advance time moves exactly on a debounced tap, an iteration without one keeps the mode, and gauges are set only when the updated mode is 12 |
| Loop.Ticks | combined-grafana.py:248-453 | a run of iterations keeps the board valid |
| Loop.TicksKeepWidths | combined-grafana.py:166-196 | however long the loop runs, in whatever modes, every history keeps the length it started with |
| Loop.WaveformSetsNoGauge | combined-grafana.py:343-371 | a waveform frame sets no gauge |
| Loop.SingleModeSetsNoGauge | combined-grafana.py:257-341 | a single-variable mode sets no gauge |
| Loop.GaugesFrozen | combined-grafana.py:251-253 | as written, from a mode below 11 every later iteration stays below 11, and no gauge is ever set again |
| Loop.FirstTapFreezesGauges | combined-grafana.py:240-253 | as written, the first tap from the start shows the humidity graph (mode 2), and from then on no gauge is set |
| Loop.UntappedIsEverything | combined-grafana.py:240-251 | until the first tap every iteration stays in mode 12 and is an everything pass in the full or timeout shape |
| Loop.NewestColumn | combined-grafana.py:169-180 | the newest sample is drawn at the right edge of the graph; when it is the history's largest, it is drawn at full height in pure red |
| Loop.IntendedCountReturnsToEverything | combined-grafana.py:251-253 | with modulus 13, a tap in mode 11 returns to mode 12 and runs the everything pass again |
| Loop.ParticulateOnlyInItsModes | combined-grafana.py:257-308 | whatever the particulate sensor reports, or if it times out, the single-variable modes 0 to 6 do exactly the same |
| Loop.TicksFollowRun | combined-grafana.py:248-254 | the mode state after any loop run is the mode machine's state after the run's proximity readings and clock readings alone |
| Loop.LoopLosesEverything | combined-grafana.py:240-253 | as written, any loop run from the start either has not advanced yet or ends below mode 11 |
| Loop.LoopAdvancesOncePerDelay | combined-grafana.py:239-254 | a loop run whose iterations all fall within one half second advances the mode at most once |
| Loop.AsWrittenWrapsToTemperature | combined-grafana.py:251-253 | as written, a tap in mode 10 wraps to mode 0 and shows the temperature graph |

## Left out

- Drawing is not modelled: PIL canvases, fonts, text layout, the pixel position of the graph line, HSV-to-RGB conversion and the LCD itself. The model stops at the values that decide what is drawn: grid cells with their palette colours, scaled graph values and their hue, and "a waveform frame".
- The waveform modes 10 and 11 are modelled only as "one waveform frame, nothing else changes". Their pixel scrolling and line colours are drawing.
- Drivers, subprocesses and the network are not modelled: `vcgencmd`, the BME280, LTR559, PMS5003, gas and noise drivers, and the Prometheus HTTP server. Each iteration is handed every reading as a value, and a gauge set becomes a trace event.
- The program reads some sensors only when it needs them: lux only when the proximity is below 10, the particulate sensor only in modes 7 to 9 and 12. The model hands all readings to every iteration. It proves that the lux reading does not matter when it is not read (`Cycle.LuxIgnoredWhenNear`) and that the particulate reading does not matter to modes 0 to 6 (`Loop.ParticulateOnlyInItsModes`). It does not prove this for every sensor and every mode. Separately, the noise amplitude, which the everything pass reads and scales but never uses, reaches no gauge and no history (`Cycle.AmplitudeNotForwarded`).
- The program reads the clock twice per tap: once in the comparison and once when storing it. The model uses one clock reading per iteration.
- Logging and the `KeyboardInterrupt` exit are not modelled. They change no modelled state.
- The 30-second sleep at the end of every iteration (combined-grafana.py:453) is not modelled: the clock readings handed to the iterations are unconstrained. This covers a wall clock that steps back. With a steady clock the sleep puts more than 0.5 s between any two iterations, so every iteration whose proximity exceeds 1500 advances the mode. `Modes.AtMostOneAdvancePerDelay` and `Loop.LoopAdvancesOncePerDelay` therefore describe runs that only a clock stepping back by at least 29.5 s could produce.
- Failures other than a particulate timeout are not modelled. Every sensor, driver and subprocess read is taken to succeed. The program catches only the PMS5003 timeouts (combined-grafana.py:315, 326, 337, 414). Any other exception leaves `main`, since only `KeyboardInterrupt` is caught (combined-grafana.py:459-461). Such a failure ends the program part-way through a pass, possibly after some gauges were already set. Every modelled iteration runs to completion.
- Floating-point rounding is not modelled: arithmetic is exact on reals. The `float()` conversions of the particulate values are the identity.
- The display width is a positive parameter (`Dashboard.Init`) rather than the panel's fixed width.
- `Loop.Ticks` states only that the board stays valid. What a run does is stated by the lemmas about it (`Loop.TicksFollowRun`, `Loop.TicksKeepWidths`, `Loop.GaugesFrozen`).

## Findings

| source | as written | input that shows it | evidently intended | confidence | as-written member | corrected member |
|---|---|---|---|---|---|---|
| combined-grafana.py:253 | `mode %= (len(variables) + 1)` takes the mode modulo 11, but the loop dispatches on modes 0 to 12 and starts in 12 | one tap from the start gives mode 13 mod 11 = 2; the ninth further tap (the tenth overall) takes mode 10 to 0, so modes 11 and 12 are never reached again and the gauges are never set again | the modulus 13, so that taps cycle through all thirteen modes and come back to the everything mode | not executed | Modes.AsWrittenOrbit, Modes.EverythingModeLost, Loop.GaugesFrozen | Modes.IntendedOrbit, Loop.IntendedCountReturnsToEverything |

The model takes the modulus as a parameter. Every as-written property uses
`Modes.ModeCount` (11), and the corrected ones use `Modes.IntendedModeCount` (13).

=== FILE: compensation.dfy ===
/**
 CPU-temperature compensation. The board temperature probe is warmed by the
 CPU below it; the program keeps a window of the last five CPU temperatures,
 averages it, and pulls the probe reading away from that average.
 */
module Compensation {
  import History
  import Gradient

  /** Tuning factor: a larger factor gives a weaker correction. */
  const Factor: real := 2.25

  /** Number of CPU readings averaged. */
  const WindowSize: nat := 5

  function Sum(s: seq<real>): real
  {
    if |s| == 0 then 0.0 else s[0] + Sum(s[1..])
  }

  /** `sum(s) / float(len(s))`. */
  function Mean(s: seq<real>): real
    requires |s| > 0
  {
    Sum(s) / (|s| as real)
  }

  /** The start-up window: the first CPU reading, five times. */
  function InitialWindow(cpu: real): (w: seq<real>)
    ensures |w| == WindowSize
    ensures Mean(w) == cpu
  {
    SumFill(WindowSize, cpu);
    History.Fill(WindowSize, cpu)
  }

  /** One smoothing step: rotate the new reading into the window and average
      it. The window keeps its length, its newest entry is `cpu`, and the
      average lies between the smallest and largest entry of the new window. */
  function Smooth(window: seq<real>, cpu: real): (out: (seq<real>, real))
    requires |window| == WindowSize
    ensures |out.0| == WindowSize
    ensures out.0[WindowSize - 1] == cpu
    ensures forall i :: 0 <= i < WindowSize - 1 ==> out.0[i] == window[i + 1]
    ensures exists i :: 0 <= i < WindowSize && out.0[i] <= out.1
    ensures exists i :: 0 <= i < WindowSize && out.1 <= out.0[i]
    ensures out.1 == (window[1] + window[2] + window[3] + window[4] + cpu) / 5.0
  {
    var w := History.Push(window, cpu);
    MeanBetween(w);
    SumFive(w);
    (w, Mean(w))
  }

  /** The sum of a five-entry window, written out. */
  lemma SumFive(w: seq<real>)
    requires |w| == 5
    ensures Sum(w) == w[0] + w[1] + w[2] + w[3] + w[4]
  {
    assert w[4..][1..] == [];
    assert Sum(w[4..]) == w[4];
    assert w[3..][1..] == w[4..];
    assert Sum(w[3..]) == w[3] + w[4];
    assert w[2..][1..] == w[3..];
    assert Sum(w[2..]) == w[2] + w[3] + w[4];
    assert w[1..][1..] == w[2..];
    assert Sum(w[1..]) == w[1] + w[2] + w[3] + w[4];
  }

  /** `raw - (avg - raw) / factor`: the probe reading corrected for CPU heat.
      It equals the raw reading exactly when the CPU average equals it, lies
      below it exactly when the CPU is warmer, and above it when cooler. */
  function Compensate(raw: real, avg: real): (t: real)
    ensures t == raw <==> avg == raw
    ensures t < raw <==> avg > raw
    ensures t > raw <==> avg < raw
  {
    raw - (avg - raw) / Factor
  }

  /** The correction can be undone: the raw probe reading is the weighted
      mean `(factor * t + avg) / (factor + 1)` of the corrected value and the
      CPU average. */
  lemma CompensateInverse(raw: real, avg: real)
    ensures raw == (Factor * Compensate(raw, avg) + avg) / (Factor + 1.0)
  {
    var t := Compensate(raw, avg);
    assert Factor * t == Factor * raw - (avg - raw);
  }

  /** A CPU 20 degrees above a 20-degree probe pulls it down to 100/9. */
  lemma CompensateExample()
    ensures Compensate(20.0, 40.0) == 100.0 / 9.0
  {
  }

  /** A warmer CPU never raises the corrected value. */
  lemma CompensateAntitone(raw: real, a: real, b: real)
    requires a <= b
    ensures Compensate(raw, b) <= Compensate(raw, a)
  {
  }

  /** `n` copies of `v` sum to `n v`. */
  lemma {:induction false} SumFill(n: nat, v: real)
    ensures Sum(History.Fill(n, v)) == n as real * v
  {
    if n > 0 {
      assert History.Fill(n, v)[1..] == History.Fill(n - 1, v);
      SumFill(n - 1, v);
    }
  }

  /** The mean of a non-empty window lies between some two of its entries. */
  lemma {:induction false} MeanBetween(w: seq<real>)
    requires |w| > 0
    ensures exists i :: 0 <= i < |w| && w[i] <= Mean(w)
    ensures exists i :: 0 <= i < |w| && Mean(w) <= w[i]
  {
    var lo, hi := Gradient.Min(w), Gradient.Max(w);
    SumBounds(w, lo, hi);
    QuotientBounds(Sum(w), |w| as real, lo, hi);
  }

  lemma QuotientBounds(x: real, n: real, lo: real, hi: real)
    requires n > 0.0 && n * lo <= x <= n * hi
    ensures lo <= x / n <= hi
  {
    var q := x / n;
    assert q * n == x;
  }

  lemma {:induction false} SumBounds(w: seq<real>, lo: real, hi: real)
    requires forall i :: 0 <= i < |w| ==> lo <= w[i] <= hi
    ensures |w| as real * lo <= Sum(w) <= |w| as real * hi
  {
    if |w| > 0 {
      SumBounds(w[1..], lo, hi);
    }
  }

  /** Five readings after start-up the window holds exactly those five
      readings, oldest first, and the average is their arithmetic mean:
      nothing of the start-up reading is left. */
  lemma FiveReadingsLater(cpu0: real, a: real, b: real, c: real, d: real, e: real)
    ensures History.PushAll(InitialWindow(cpu0), [a, b, c, d, e]) == [a, b, c, d, e]
    ensures Mean(History.PushAll(InitialWindow(cpu0), [a, b, c, d, e])) == (a + b + c + d + e) / 5.0
  {
    History.LastSamplesOnly(InitialWindow(cpu0), [a, b, c, d, e]);
    assert [a, b, c, d, e][1..] == [b, c, d, e];
    assert [b, c, d, e][1..] == [c, d, e];
    assert [c, d, e][1..] == [d, e];
    assert [d, e][1..] == [e];
    assert [e][1..] == [];
    assert Sum([e]) == e;
    assert Sum([d, e]) == d + e;
    assert Sum([c, d, e]) == c + d + e;
    assert Sum([b, c, d, e]) == b + c + d + e;
    assert Sum([a, b, c, d, e]) == a + b + c + d + e;
  }

  /** The first average after start-up weighs the start-up reading four
      times and the first fresh reading once. */
  lemma FirstAverage(cpu0: real, cpu1: real)
    ensures Smooth(InitialWindow(cpu0), cpu1).1 == (4.0 * cpu0 + cpu1) / 5.0
  {
  }
}

=== FILE: cycle.dfy ===
/**
 The "everything" mode: one pass over all sensors that pushes every
 history, redraws the grid after each group of readings, and sets every
 metric gauge. A particulate timeout skips the whole particulate group.
 */
module Cycle {
  import History
  import Compensation
  import opened Sensors
  import opened Dashboard
  import opened Trace

  /** The event kinds of each group, in program order. */
  const TemperatureShape: seq<Kind> :=
    [GaugeSet(CpuTemp), GaugeSet(RawTemp), GaugeSet(AvgTemp), Stored(0), GridShown]
  const PressureShape: seq<Kind> :=
    [GaugeSet(Pressure), Stored(1), GridShown]
  /** No grid after humidity: it is drawn once, after the light value. */
  const HumidityLightShape: seq<Kind> :=
    [GaugeSet(Humidity), Stored(2), GaugeSet(Light), Stored(3), GridShown]
  const GasShape: seq<Kind> :=
    [Stored(4), GaugeSet(Oxidised), Stored(5), GaugeSet(Reduced), Stored(6), GaugeSet(Nh3), GridShown]
  /** Mass concentrations are pushed, forwarded and drawn; particle counts
      are only forwarded. */
  const ParticulateMassShape: seq<Kind> :=
    [Stored(7), GaugeSet(Pm1), Stored(8), GaugeSet(Pm25), Stored(9), GaugeSet(Pm10), GridShown]
  const ParticulateCountShape: seq<Kind> :=
    [GaugeSet(Pm03PerLitre), GaugeSet(Pm05PerLitre), GaugeSet(Pm1PerLitre),
     GaugeSet(Pm25PerLitre), GaugeSet(Pm5PerLitre), GaugeSet(Pm10PerLitre)]
  const ParticulateShape: seq<Kind> := ParticulateMassShape + ParticulateCountShape
  /** The noise amplitude is scaled but no gauge receives it. */
  const NoiseShape: seq<Kind> :=
    [GaugeSet(NoiseLow), GaugeSet(NoiseMid), GaugeSet(NoiseHigh),
     GaugeSet(Amp100To200), GaugeSet(Amp500To600), GaugeSet(Amp1000To1200)]

  const FullShape: seq<Kind> :=
    TemperatureShape + PressureShape + HumidityLightShape + GasShape + ParticulateShape + NoiseShape
  const TimeoutShape: seq<Kind> :=
    TemperatureShape + PressureShape + HumidityLightShape + GasShape + NoiseShape

  /** The value gauge `g` is given this iteration (`None`: not given, which
      happens only to particulate gauges on a timeout). `window` is the CPU
      window after rotation. Noise bands are truncated to integers. */
  function GaugeValue(window: seq<real>, r: Readings, g: Gauge): (v: Option<real>)
    requires |window| == Compensation.WindowSize
    ensures v.None? <==> FromParticulate(g) && r.particulate.None?
  {
    var p := r.particulate;
    match g
    case CpuTemp => Some(Compensation.Mean(window))
    case RawTemp => Some(r.temperature)
    case AvgTemp => Sample(window, r, 0)
    case Pressure => Sample(window, r, 1)
    case Humidity => Sample(window, r, 2)
    case Light => Sample(window, r, 3)
    case Oxidised => Sample(window, r, 4)
    case Reduced => Sample(window, r, 5)
    case Nh3 => Sample(window, r, 6)
    case Pm1 => Sample(window, r, 7)
    case Pm25 => Sample(window, r, 8)
    case Pm10 => Sample(window, r, 9)
    case NoiseLow => Some(Trunc(r.noise.low * NoiseBandScale) as real)
    case NoiseMid => Some(Trunc(r.noise.mid * NoiseBandScale) as real)
    case NoiseHigh => Some(Trunc(r.noise.high * NoiseBandScale) as real)
    case Amp100To200 => Some(r.bands.hz100 * FrequencyScale)
    case Amp500To600 => Some(r.bands.hz500 * FrequencyScale)
    case Amp1000To1200 => Some(r.bands.hz1000 * FrequencyScale)
    case Pm03PerLitre => if p.Some? then Some(p.value.count03) else None
    case Pm05PerLitre => if p.Some? then Some(p.value.count05) else None
    case Pm1PerLitre => if p.Some? then Some(p.value.count1) else None
    case Pm25PerLitre => if p.Some? then Some(p.value.count25) else None
    case Pm5PerLitre => if p.Some? then Some(p.value.count5) else None
    case Pm10PerLitre => if p.Some? then Some(p.value.count10) else None
  }

  /** A gauge set or push carries the value the per-gauge or per-variable
      table gives it; other events carry no reading. */
  predicate FaithfulEvent(window: seq<real>, r: Readings, e: Event)
    requires |window| == Compensation.WindowSize
  {
    && (e.SetGauge? ==> GaugeValue(window, r, e.gauge) == Some(e.value))
    && (e.Store? ==> e.variable < NumVariables && Sample(window, r, e.variable) == Some(e.value))
  }

  /** Every event of `tr` is faithful. */
  predicate Faithful(window: seq<real>, r: Readings, tr: seq<Event>)
    requires |window| == Compensation.WindowSize
  {
    forall k :: 0 <= k < |tr| ==> FaithfulEvent(window, r, tr[k])
  }

  lemma FaithfulAppend(window: seq<real>, r: Readings, a: seq<Event>, b: seq<Event>)
    requires |window| == Compensation.WindowSize
    requires Faithful(window, r, a) && Faithful(window, r, b)
    ensures Faithful(window, r, a + b)
  {
    forall k | 0 <= k < |a + b|
      ensures (a + b)[k] == (if k < |a| then a[k] else b[k - |a|])
    {
    }
  }

  /** Histories `lo .. hi-1` pushed with this iteration's samples, the
      others and the CPU window as before. */
  predicate PushedRange(b: Board, b': Board, window: seq<real>, r: Readings, lo: nat, hi: nat)
    requires Valid(b) && Valid(b') && |window| == Compensation.WindowSize
  {
    forall i :: 0 <= i < NumVariables ==>
      b'.values[i] == if lo <= i < hi then Updated(b, window, r, i) else b.values[i]
  }

  /** CPU, probe and compensated temperature; push; grid. The grid frame
      shows the board with the new temperature pushed. */
  function TemperatureGroup(b: Board, r: Readings): (out: (Board, seq<Event>))
    requires Valid(b)
    ensures Valid(out.0)
    ensures out.0.cpuTemps == History.Push(b.cpuTemps, r.cpu)
    ensures PushedRange(b, out.0, out.0.cpuTemps, r, 0, 1)
    ensures Kinds(out.1) == TemperatureShape
    ensures Faithful(out.0.cpuTemps, r, out.1)
    ensures Draws(b.(cpuTemps := out.0.cpuTemps), out.1, out.0)
    ensures out.1[|out.1| - 1] == ShowGrid(Grid(out.0))
  {
    var (w, avg) := Compensation.Smooth(b.cpuTemps, r.cpu);
    var t := Compensation.Compensate(r.temperature, avg);
    var b1 := Save(b.(cpuTemps := w), 0, t);
    TemperatureFrames(b.(cpuTemps := w), avg, r.temperature, t);
    (b1, [SetGauge(CpuTemp, avg), SetGauge(RawTemp, r.temperature), SetGauge(AvgTemp, t),
          Store(0, t), ShowGrid(Grid(b1))])
  }

  lemma TemperatureFrames(b: Board, avg: real, raw: real, t: real)
    requires Valid(b)
    ensures Draws(b, [SetGauge(CpuTemp, avg), SetGauge(RawTemp, raw), SetGauge(AvgTemp, t),
                      Store(0, t), ShowGrid(Grid(Save(b, 0, t)))], Save(b, 0, t))
  {
    var e1 := [SetGauge(CpuTemp, avg), SetGauge(RawTemp, raw), SetGauge(AvgTemp, t)];
    var e2 := [Store(0, t)];
    var e3 := [ShowGrid(Grid(Save(b, 0, t)))];
    GaugesOnly(b, e1);
    assert Draws(b, e2, Save(b, 0, t)) by {
      assert e2[1..] == [];
    }
    GridFrame(Save(b, 0, t));
    Chain(b, b, Save(b, 0, t), e1, e2);
    Chain(b, Save(b, 0, t), Save(b, 0, t), e1 + e2, e3);
    assert e1 + e2 + e3 ==
      [SetGauge(CpuTemp, avg), SetGauge(RawTemp, raw), SetGauge(AvgTemp, t),
       Store(0, t), ShowGrid(Grid(Save(b, 0, t)))];
  }

  /** A grid frame of the current board: nothing pushed, frame current. */
  lemma GridFrame(b: Board)
    requires Valid(b)
    ensures Draws(b, [ShowGrid(Grid(b))], b)
  {
    assert [ShowGrid(Grid(b))][1..] == [];
  }

  /** One reading pushed onto history `i` and forwarded to gauge `g`, the
      push first or the gauge first. */
  function Forward(b: Board, w: seq<real>, r: Readings, i: nat, g: Gauge, pushFirst: bool): (out: (Board, seq<Event>))
    requires Valid(b) && |w| == Compensation.WindowSize && i < NumVariables
    requires Sample(w, r, i).Some? && GaugeValue(w, r, g) == Sample(w, r, i)
    ensures Valid(out.0) && out.0.cpuTemps == b.cpuTemps
    ensures PushedRange(b, out.0, w, r, i, i + 1)
    ensures Kinds(out.1) == if pushFirst then [Stored(i), GaugeSet(g)] else [GaugeSet(g), Stored(i)]
    ensures Faithful(w, r, out.1)
    ensures Draws(b, out.1, out.0)
  {
    var v := Sample(w, r, i).value;
    PairFrames(b, i, v, g, pushFirst);
    (Save(b, i, v), if pushFirst then [Store(i, v), SetGauge(g, v)] else [SetGauge(g, v), Store(i, v)])
  }

  /** A push and a gauge set, in either order, push once and draw nothing. */
  lemma PairFrames(b: Board, i: nat, v: real, g: Gauge, pushFirst: bool)
    requires Valid(b) && i < NumVariables
    ensures var tr := if pushFirst then [Store(i, v), SetGauge(g, v)] else [SetGauge(g, v), Store(i, v)];
      Draws(b, tr, Save(b, i, v))
  {
    if pushFirst {
      var tr := [Store(i, v), SetGauge(g, v)];
      assert Play(Screen(b, true), tr) == Play(Screen(Save(b, i, v), true), [SetGauge(g, v)]) by {
        assert tr[1..] == [SetGauge(g, v)];
      }
      GaugesOnly(Save(b, i, v), [SetGauge(g, v)]);
    } else {
      var tr := [SetGauge(g, v), Store(i, v)];
      assert Play(Screen(b, true), tr) == Play(Screen(b, true), [Store(i, v)]) by {
        assert tr[1..] == [Store(i, v)];
      }
      assert Draws(b, [Store(i, v)], Save(b, i, v)) by {
        assert [Store(i, v)][1..] == [];
      }
    }
  }

  /** Two consecutive ranges of pushes make one. */
  lemma PushedJoin(b: Board, b1: Board, b2: Board, w: seq<real>, r: Readings, lo: nat, mid: nat, hi: nat)
    requires Valid(b) && Valid(b1) && Valid(b2) && |w| == Compensation.WindowSize && lo <= mid <= hi
    requires PushedRange(b, b1, w, r, lo, mid) && PushedRange(b1, b2, w, r, mid, hi)
    ensures PushedRange(b, b2, w, r, lo, hi)
  {
    forall i | mid <= i < NumVariables
      ensures Updated(b1, w, r, i) == Updated(b, w, r, i)
    {
    }
  }

  lemma ThreePairsThenOne(a: Kind, b: Kind, c: Kind, d: Kind, e: Kind, f: Kind, g: Kind)
    ensures [a, b] + [c, d] + [e, f] + [g] == [a, b, c, d, e, f, g]
  {
  }

  lemma TwoPairsThenOne(a: Kind, b: Kind, c: Kind, d: Kind, e: Kind)
    ensures [a, b] + [c, d] + [e] + [] == [a, b, c, d, e]
  {
  }

  /** The grid event: no reading, kind `GridShown`. */
  lemma GridEvent(w: seq<real>, r: Readings, cells: seq<Cell>)
    requires |w| == Compensation.WindowSize
    ensures Kinds([ShowGrid(cells)]) == [GridShown]
    ensures Faithful(w, r, [ShowGrid(cells)])
  {
  }

  /** Kinds and faithfulness of up to four pieces joined. */
  lemma Join(w: seq<real>, r: Readings, e1: seq<Event>, e2: seq<Event>, e3: seq<Event>, e4: seq<Event>)
    requires |w| == Compensation.WindowSize
    requires Faithful(w, r, e1) && Faithful(w, r, e2) && Faithful(w, r, e3) && Faithful(w, r, e4)
    ensures Kinds(e1 + e2 + e3 + e4) == Kinds(e1) + Kinds(e2) + Kinds(e3) + Kinds(e4)
    ensures Faithful(w, r, e1 + e2 + e3 + e4)
  {
    KindsAppend(e1, e2);
    KindsAppend(e1 + e2, e3);
    KindsAppend(e1 + e2 + e3, e4);
    FaithfulAppend(w, r, e1, e2);
    FaithfulAppend(w, r, e1 + e2, e3);
    FaithfulAppend(w, r, e1 + e2 + e3, e4);
  }

  /** Four consecutive pieces, each played from where the previous ends. */
  lemma Chain4(b: Board, b1: Board, b2: Board, b3: Board, b4: Board,
               e1: seq<Event>, e2: seq<Event>, e3: seq<Event>, e4: seq<Event>)
    requires Valid(b) && Valid(b1) && Valid(b2) && Valid(b3)
    requires Draws(b, e1, b1) && Draws(b1, e2, b2) && Draws(b2, e3, b3) && Draws(b3, e4, b4)
    ensures Draws(b, e1 + e2 + e3 + e4, b4)
  {
    Chain(b, b1, b2, e1, e2);
    Chain(b, b2, b3, e1 + e2, e3);
    Chain(b, b3, b4, e1 + e2 + e3, e4);
  }

  function PressureGroup(b: Board, r: Readings): (out: (Board, seq<Event>))
    requires Valid(b)
    ensures Valid(out.0) && out.0.cpuTemps == b.cpuTemps
    ensures PushedRange(b, out.0, b.cpuTemps, r, 1, 2)
    ensures Kinds(out.1) == PressureShape
    ensures Faithful(b.cpuTemps, r, out.1)
    ensures Draws(b, out.1, out.0)
    ensures out.1[|out.1| - 1] == ShowGrid(Grid(out.0))
  {
    var w := b.cpuTemps;
    var (b1, e1) := Forward(b, w, r, 1, Pressure, false);
    var e2 := [ShowGrid(Grid(b1))];
    GridEvent(w, r, Grid(b1));
    GridFrame(b1);
    Join(w, r, e1, e2, [], []);
    Chain4(b, b1, b1, b1, b1, e1, e2, [], []);
    assert e1 + e2 + [] + [] == e1 + e2;
    (b1, e1 + e2)
  }

  /** Humidity, then light: each forwarded then pushed; one grid at the end
      (none after humidity). */
  function HumidityLightGroup(b: Board, r: Readings): (out: (Board, seq<Event>))
    requires Valid(b)
    ensures Valid(out.0) && out.0.cpuTemps == b.cpuTemps
    ensures PushedRange(b, out.0, b.cpuTemps, r, 2, 4)
    ensures Kinds(out.1) == HumidityLightShape
    ensures Faithful(b.cpuTemps, r, out.1)
    ensures Draws(b, out.1, out.0)
    ensures out.1[|out.1| - 1] == ShowGrid(Grid(out.0))
  {
    var w := b.cpuTemps;
    var (b1, e1) := Forward(b, w, r, 2, Humidity, false);
    var (b2, e2) := Forward(b1, w, r, 3, Light, false);
    var e3 := [ShowGrid(Grid(b2))];
    PushedJoin(b, b1, b2, w, r, 2, 3, 4);
    TwoPairsThenOne(GaugeSet(Humidity), Stored(2), GaugeSet(Light), Stored(3), GridShown);
    GridEvent(w, r, Grid(b2));
    GridFrame(b2);
    Join(w, r, e1, e2, e3, []);
    Chain4(b, b1, b2, b2, b2, e1, e2, e3, []);
    assert e1 + e2 + e3 + [] == e1 + e2 + e3;
    (b2, e1 + e2 + e3)
  }

  lemma GasTracked(w: seq<real>, r: Readings)
    requires |w| == Compensation.WindowSize
    ensures Sample(w, r, 4) == GaugeValue(w, r, Oxidised) == Some(r.gas.oxidising / GasDivisor)
    ensures Sample(w, r, 5) == GaugeValue(w, r, Reduced) == Some(r.gas.reducing / GasDivisor)
    ensures Sample(w, r, 6) == GaugeValue(w, r, Nh3) == Some(r.gas.nh3 / GasDivisor)
  {
  }

  /** The three gas resistances in kilo-ohms: each pushed then forwarded;
      grid. */
  function GasGroup(b: Board, r: Readings): (out: (Board, seq<Event>))
    requires Valid(b)
    ensures Valid(out.0) && out.0.cpuTemps == b.cpuTemps
    ensures PushedRange(b, out.0, b.cpuTemps, r, 4, 7)
    ensures Kinds(out.1) == GasShape
    ensures Faithful(b.cpuTemps, r, out.1)
    ensures Draws(b, out.1, out.0)
    ensures out.1[|out.1| - 1] == ShowGrid(Grid(out.0))
  {
    var w := b.cpuTemps;
    GasTracked(w, r);
    var (b1, e1) := Forward(b, w, r, 4, Oxidised, true);
    var (b2, e2) := Forward(b1, w, r, 5, Reduced, true);
    var (b3, e3) := Forward(b2, w, r, 6, Nh3, true);
    var e4 := [ShowGrid(Grid(b3))];
    PushedJoin(b, b1, b2, w, r, 4, 5, 6);
    PushedJoin(b, b2, b3, w, r, 4, 6, 7);
    ThreePairsThenOne(Stored(4), GaugeSet(Oxidised), Stored(5), GaugeSet(Reduced), Stored(6), GaugeSet(Nh3), GridShown);
    GridEvent(w, r, Grid(b3));
    GridFrame(b3);
    Join(w, r, e1, e2, e3, e4);
    Chain4(b, b1, b2, b3, b3, e1, e2, e3, e4);
    (b3, e1 + e2 + e3 + e4)
  }

  lemma MassTracked(w: seq<real>, r: Readings)
    requires |w| == Compensation.WindowSize && r.particulate.Some?
    ensures Sample(w, r, 7) == GaugeValue(w, r, Pm1) == Some(r.particulate.value.pm1)
    ensures Sample(w, r, 8) == GaugeValue(w, r, Pm25) == Some(r.particulate.value.pm25)
    ensures Sample(w, r, 9) == GaugeValue(w, r, Pm10) == Some(r.particulate.value.pm10)
  {
  }

  /** Mass concentrations: each pushed then forwarded; grid. */
  function ParticulateMassGroup(b: Board, r: Readings): (out: (Board, seq<Event>))
    requires Valid(b) && r.particulate.Some?
    ensures Valid(out.0) && out.0.cpuTemps == b.cpuTemps
    ensures PushedRange(b, out.0, b.cpuTemps, r, 7, 10)
    ensures Kinds(out.1) == ParticulateMassShape
    ensures Faithful(b.cpuTemps, r, out.1)
    ensures Draws(b, out.1, out.0)
    ensures out.1[|out.1| - 1] == ShowGrid(Grid(out.0))
  {
    var w := b.cpuTemps;
    MassTracked(w, r);
    var (b1, e1) := Forward(b, w, r, 7, Pm1, true);
    var (b2, e2) := Forward(b1, w, r, 8, Pm25, true);
    var (b3, e3) := Forward(b2, w, r, 9, Pm10, true);
    var e4 := [ShowGrid(Grid(b3))];
    PushedJoin(b, b1, b2, w, r, 7, 8, 9);
    PushedJoin(b, b2, b3, w, r, 7, 9, 10);
    ThreePairsThenOne(Stored(7), GaugeSet(Pm1), Stored(8), GaugeSet(Pm25), Stored(9), GaugeSet(Pm10), GridShown);
    GridEvent(w, r, Grid(b3));
    GridFrame(b3);
    Join(w, r, e1, e2, e3, e4);
    Chain4(b, b1, b2, b3, b3, e1, e2, e3, e4);
    (b3, e1 + e2 + e3 + e4)
  }

  /** Particle counts: forwarded to their gauges only. */
  function ParticleCountGauges(r: Readings): (tr: seq<Event>)
    requires r.particulate.Some?
    ensures Kinds(tr) == ParticulateCountShape
    ensures forall w :: |w| == Compensation.WindowSize ==> Faithful(w, r, tr)
  {
    var p := r.particulate.value;
    [SetGauge(Pm03PerLitre, p.count03), SetGauge(Pm05PerLitre, p.count05),
     SetGauge(Pm1PerLitre, p.count1), SetGauge(Pm25PerLitre, p.count25),
     SetGauge(Pm5PerLitre, p.count5), SetGauge(Pm10PerLitre, p.count10)]
  }

  /** On a timeout nothing at all happens in this group. */
  function ParticulateGroup(b: Board, r: Readings): (out: (Board, seq<Event>))
    requires Valid(b)
    ensures Valid(out.0) && out.0.cpuTemps == b.cpuTemps
    ensures PushedRange(b, out.0, b.cpuTemps, r, 7, 10)
    ensures r.particulate.None? ==> out == (b, [])
    ensures r.particulate.Some? ==> Kinds(out.1) == ParticulateShape
    ensures Faithful(b.cpuTemps, r, out.1)
    ensures Draws(b, out.1, out.0)
    ensures r.particulate.Some? ==> out.1[|ParticulateMassShape| - 1] == ShowGrid(Grid(out.0))
  {
    match r.particulate
    case None => (b, [])
    case Some(_) =>
      var (b1, e1) := ParticulateMassGroup(b, r);
      var e2 := ParticleCountGauges(r);
      MassThenCounts(b, b1, r, e1, e2);
      (b1, e1 + e2)
  }

  /** The mass part followed by the count part. */
  lemma MassThenCounts(b: Board, b1: Board, r: Readings, e1: seq<Event>, e2: seq<Event>)
    requires Valid(b) && Valid(b1) && r.particulate.Some? && |b.cpuTemps| == Compensation.WindowSize
    requires Kinds(e1) == ParticulateMassShape && Faithful(b.cpuTemps, r, e1)
    requires Draws(b, e1, b1) && e1[|e1| - 1] == ShowGrid(Grid(b1))
    requires e2 == ParticleCountGauges(r)
    ensures Kinds(e1 + e2) == ParticulateShape
    ensures Faithful(b.cpuTemps, r, e1 + e2)
    ensures Draws(b, e1 + e2, b1)
    ensures (e1 + e2)[|ParticulateMassShape| - 1] == ShowGrid(Grid(b1))
  {
    KindsAppend(e1, e2);
    FaithfulAppend(b.cpuTemps, r, e1, e2);
    CountsOnlyGauges(r);
    GaugesOnly(b1, e2);
    Chain(b, b1, b1, e1, e2);
  }

  /** Noise bands (scaled, truncated) and frequency-range amplitudes (scaled).
      The overall amplitude is scaled too, but nothing receives it. */
  function NoiseGroup(window: seq<real>, r: Readings): (tr: seq<Event>)
    requires |window| == Compensation.WindowSize
    ensures Kinds(tr) == NoiseShape
    ensures Faithful(window, r, tr)
  {
    var low := r.noise.low * NoiseBandScale;
    var mid := r.noise.mid * NoiseBandScale;
    var high := r.noise.high * NoiseBandScale;
    var amp := r.noise.amp * NoiseAmpScale;
    [SetGauge(NoiseLow, Trunc(low) as real), SetGauge(NoiseMid, Trunc(mid) as real),
     SetGauge(NoiseHigh, Trunc(high) as real),
     SetGauge(Amp100To200, r.bands.hz100 * FrequencyScale),
     SetGauge(Amp500To600, r.bands.hz500 * FrequencyScale),
     SetGauge(Amp1000To1200, r.bands.hz1000 * FrequencyScale)]
  }

  /** The particle counts and the noise group only set gauges. */
  lemma CountsOnlyGauges(r: Readings)
    requires r.particulate.Some?
    ensures forall k :: 0 <= k < |ParticleCountGauges(r)| ==> ParticleCountGauges(r)[k].SetGauge?
  {
    GaugeKinds(ParticleCountGauges(r));
  }

  lemma NoiseOnlyGauges(window: seq<real>, r: Readings)
    requires |window| == Compensation.WindowSize
    ensures forall k :: 0 <= k < |NoiseGroup(window, r)| ==> NoiseGroup(window, r)[k].SetGauge?
  {
    GaugeKinds(NoiseGroup(window, r));
  }

  /** One "everything" iteration. Its events come in exactly the order of
      `FullShape` (or `TimeoutShape` when the particulate read timed out),
      every gauge and push carries its table value, the CPU window is rotated
      once, and each history is pushed once with its sample, except the
      particulate histories on a timeout, which stay as they were. Every
      grid frame shows the board with exactly the pushes before it applied. */
  function Everything(b: Board, r: Readings): (out: (Board, seq<Event>))
    requires Valid(b)
    ensures Valid(out.0)
    ensures out.0.cpuTemps == History.Push(b.cpuTemps, r.cpu)
    ensures forall i :: 0 <= i < NumVariables ==>
      out.0.values[i] == Updated(b, out.0.cpuTemps, r, i)
    ensures Kinds(out.1) == if r.particulate.Some? then FullShape else TimeoutShape
    ensures Faithful(out.0.cpuTemps, r, out.1)
    ensures Draws(b.(cpuTemps := out.0.cpuTemps), out.1, out.0)
    ensures GridsCurrent(b.(cpuTemps := out.0.cpuTemps), out.1)
  {
    var (b1, e1) := TemperatureGroup(b, r);
    var w := b1.cpuTemps;
    var (b2, e2) := PressureGroup(b1, r);
    var (b3, e3) := HumidityLightGroup(b2, r);
    var (b4, e4) := GasGroup(b3, r);
    var (b5, e5) := ParticulateGroup(b4, r);
    var e6 := NoiseGroup(w, r);
    EverythingGlue(b, r, w, b1, b2, b3, b4, b5, e1, e2, e3, e4, e5, e6);
    NoiseOnlyGauges(w, r);
    GaugesOnly(b5, e6);
    EverythingFrames(b.(cpuTemps := w), b1, b2, b3, b4, b5, e1, e2, e3, e4, e5, e6);
    (b5, e1 + e2 + e3 + e4 + e5 + e6)
  }

  /** The groups' traces, each played from where the previous one ends. */
  lemma EverythingFrames(b: Board, b1: Board, b2: Board, b3: Board, b4: Board, b5: Board,
                         e1: seq<Event>, e2: seq<Event>, e3: seq<Event>,
                         e4: seq<Event>, e5: seq<Event>, e6: seq<Event>)
    requires Valid(b) && Valid(b1) && Valid(b2) && Valid(b3) && Valid(b4) && Valid(b5)
    requires Draws(b, e1, b1) && Draws(b1, e2, b2) && Draws(b2, e3, b3)
    requires Draws(b3, e4, b4) && Draws(b4, e5, b5) && Draws(b5, e6, b5)
    ensures Draws(b, e1 + e2 + e3 + e4 + e5 + e6, b5)
    ensures GridsCurrent(b, e1 + e2 + e3 + e4 + e5 + e6)
  {
    Chain4(b, b1, b2, b3, b4, e1, e2, e3, e4);
    Chain(b, b4, b5, e1 + e2 + e3 + e4, e5);
    Chain(b, b5, b5, e1 + e2 + e3 + e4 + e5, e6);
    CurrentFrames(b, e1 + e2 + e3 + e4 + e5 + e6);
  }

  /** The bookkeeping that composes the groups. */
  lemma EverythingGlue(b: Board, r: Readings, w: seq<real>,
                       b1: Board, b2: Board, b3: Board, b4: Board, b5: Board,
                       e1: seq<Event>, e2: seq<Event>, e3: seq<Event>,
                       e4: seq<Event>, e5: seq<Event>, e6: seq<Event>)
    requires Valid(b) && Valid(b1) && Valid(b2) && Valid(b3) && Valid(b4) && Valid(b5)
    requires |w| == Compensation.WindowSize
    requires PushedRange(b, b1, w, r, 0, 1) && PushedRange(b1, b2, w, r, 1, 2)
    requires PushedRange(b2, b3, w, r, 2, 4) && PushedRange(b3, b4, w, r, 4, 7)
    requires PushedRange(b4, b5, w, r, 7, 10)
    requires Kinds(e1) == TemperatureShape && Kinds(e2) == PressureShape
    requires Kinds(e3) == HumidityLightShape && Kinds(e4) == GasShape
    requires r.particulate.None? ==> e5 == []
    requires r.particulate.Some? ==> Kinds(e5) == ParticulateShape
    requires Kinds(e6) == NoiseShape
    requires Faithful(w, r, e1) && Faithful(w, r, e2) && Faithful(w, r, e3)
    requires Faithful(w, r, e4) && Faithful(w, r, e5) && Faithful(w, r, e6)
    ensures forall i :: 0 <= i < NumVariables ==> b5.values[i] == Updated(b, w, r, i)
    ensures Kinds(e1 + e2 + e3 + e4 + e5 + e6) ==
      if r.particulate.Some? then FullShape else TimeoutShape
    ensures Faithful(w, r, e1 + e2 + e3 + e4 + e5 + e6)
  {
    forall i | 0 <= i < NumVariables
      ensures b5.values[i] == Updated(b, w, r, i)
    {
      if i >= 1 {
        assert Updated(b1, w, r, i) == Updated(b, w, r, i);
      }
      if i >= 2 {
        assert Updated(b2, w, r, i) == Updated(b, w, r, i);
      }
      if i >= 4 {
        assert Updated(b3, w, r, i) == Updated(b, w, r, i);
      }
      if i >= 7 {
        assert Updated(b4, w, r, i) == Updated(b, w, r, i);
      }
    }
    KindsAppend(e1, e2);
    KindsAppend(e1 + e2, e3);
    KindsAppend(e1 + e2 + e3, e4);
    KindsAppend(e1 + e2 + e3 + e4, e5);
    KindsAppend(e1 + e2 + e3 + e4 + e5, e6);
    if r.particulate.None? {
      assert e1 + e2 + e3 + e4 + e5 == e1 + e2 + e3 + e4;
    }
    FaithfulAppend(w, r, e1, e2);
    FaithfulAppend(w, r, e1 + e2, e3);
    FaithfulAppend(w, r, e1 + e2 + e3, e4);
    FaithfulAppend(w, r, e1 + e2 + e3 + e4, e5);
    FaithfulAppend(w, r, e1 + e2 + e3 + e4 + e5, e6);
  }

  /** The gauges each group sets. */
  predicate TemperatureGauge(g: Gauge) { g.CpuTemp? || g.RawTemp? || g.AvgTemp? }
  predicate GasGauge(g: Gauge) { g.Oxidised? || g.Reduced? || g.Nh3? }
  predicate NoiseGauge(g: Gauge)
  {
    g.NoiseLow? || g.NoiseMid? || g.NoiseHigh? || g.Amp100To200? || g.Amp500To600? || g.Amp1000To1200?
  }

  /* How often each gauge, each push and the grid occur in each group. */

  lemma TemperatureGauges()
    ensures forall g :: multiset(TemperatureShape)[GaugeSet(g)] == if TemperatureGauge(g) then 1 else 0
  {
  }

  lemma TemperatureStores()
    ensures forall i :: multiset(TemperatureShape)[Stored(i)] == if i == 0 then 1 else 0
    ensures multiset(TemperatureShape)[GridShown] == 1
  {
  }

  lemma PressureGauges()
    ensures forall g :: multiset(PressureShape)[GaugeSet(g)] == if g.Pressure? then 1 else 0
  {
  }

  lemma PressureStores()
    ensures forall i :: multiset(PressureShape)[Stored(i)] == if i == 1 then 1 else 0
    ensures multiset(PressureShape)[GridShown] == 1
  {
  }

  lemma HumidityLightGauges()
    ensures forall g :: multiset(HumidityLightShape)[GaugeSet(g)] == if g.Humidity? || g.Light? then 1 else 0
  {
  }

  lemma HumidityLightStores()
    ensures forall i :: multiset(HumidityLightShape)[Stored(i)] == if 2 <= i < 4 then 1 else 0
    ensures multiset(HumidityLightShape)[GridShown] == 1
  {
  }

  lemma GasGauges()
    ensures forall g :: multiset(GasShape)[GaugeSet(g)] == if GasGauge(g) then 1 else 0
  {
  }

  lemma GasStores()
    ensures forall i :: multiset(GasShape)[Stored(i)] == if 4 <= i < 7 then 1 else 0
    ensures multiset(GasShape)[GridShown] == 1
  {
  }

  lemma ParticulateMassGauges()
    ensures forall g :: multiset(ParticulateMassShape)[GaugeSet(g)] == if g.Pm1? || g.Pm25? || g.Pm10? then 1 else 0
  {
  }

  lemma ParticulateMassStores()
    ensures forall i :: multiset(ParticulateMassShape)[Stored(i)] == if 7 <= i < 10 then 1 else 0
    ensures multiset(ParticulateMassShape)[GridShown] == 1
  {
  }

  lemma ParticulateCountGauges()
    ensures forall g :: multiset(ParticulateCountShape)[GaugeSet(g)] ==
                        if FromParticulate(g) && !(g.Pm1? || g.Pm25? || g.Pm10?) then 1 else 0
  {
  }

  lemma ParticulateCountStores()
    ensures forall i :: multiset(ParticulateCountShape)[Stored(i)] == 0
    ensures multiset(ParticulateCountShape)[GridShown] == 0
  {
  }

  lemma NoiseGauges()
    ensures forall g :: multiset(NoiseShape)[GaugeSet(g)] == if NoiseGauge(g) then 1 else 0
  {
  }

  lemma NoiseStores()
    ensures forall i :: multiset(NoiseShape)[Stored(i)] == 0
    ensures multiset(NoiseShape)[GridShown] == 0
  {
  }

  /** The two particulate parts set disjoint gauges. */
  lemma ParticulateGauges(g: Gauge)
    ensures multiset(ParticulateShape)[GaugeSet(g)] == if FromParticulate(g) then 1 else 0
  {
    ParticulateMassGauges();
    ParticulateCountGauges();
    assert multiset(ParticulateShape) == multiset(ParticulateMassShape) + multiset(ParticulateCountShape);
  }

  lemma ParticulateStores(i: nat)
    ensures multiset(ParticulateShape)[Stored(i)] == if 7 <= i < 10 then 1 else 0
    ensures multiset(ParticulateShape)[GridShown] == 1
  {
    ParticulateMassStores();
    ParticulateCountStores();
    assert multiset(ParticulateShape) == multiset(ParticulateMassShape) + multiset(ParticulateCountShape);
  }

  /** The gauge groups partition the gauges. */
  lemma GaugeGroupsPartition(g: Gauge)
    ensures (if TemperatureGauge(g) then 1 else 0) + (if g.Pressure? then 1 else 0)
          + (if g.Humidity? || g.Light? then 1 else 0) + (if GasGauge(g) then 1 else 0)
          + (if FromParticulate(g) then 1 else 0) + (if NoiseGauge(g) then 1 else 0) == 1
  {
  }

  /** Adding up the groups' gauge counts, for any six traces with those counts. */
  lemma GaugeTally(t: seq<Kind>, p: seq<Kind>, h: seq<Kind>, a: seq<Kind>, m: seq<Kind>, n: seq<Kind>, g: Gauge)
    requires multiset(t)[GaugeSet(g)] == if TemperatureGauge(g) then 1 else 0
    requires multiset(p)[GaugeSet(g)] == if g.Pressure? then 1 else 0
    requires multiset(h)[GaugeSet(g)] == if g.Humidity? || g.Light? then 1 else 0
    requires multiset(a)[GaugeSet(g)] == if GasGauge(g) then 1 else 0
    requires multiset(m)[GaugeSet(g)] == if FromParticulate(g) then 1 else 0
    requires multiset(n)[GaugeSet(g)] == if NoiseGauge(g) then 1 else 0
    ensures multiset(t + p + h + a + m + n)[GaugeSet(g)] == 1
    ensures multiset(t + p + h + a + n)[GaugeSet(g)] == if FromParticulate(g) then 0 else 1
  {
    GaugeGroupsPartition(g);
  }

  /** Adding up the groups' push and grid counts. */
  lemma StoreTally(t: seq<Kind>, p: seq<Kind>, h: seq<Kind>, a: seq<Kind>, m: seq<Kind>, n: seq<Kind>, i: nat)
    requires multiset(t)[Stored(i)] == (if i == 0 then 1 else 0) && multiset(t)[GridShown] == 1
    requires multiset(p)[Stored(i)] == (if i == 1 then 1 else 0) && multiset(p)[GridShown] == 1
    requires multiset(h)[Stored(i)] == (if 2 <= i < 4 then 1 else 0) && multiset(h)[GridShown] == 1
    requires multiset(a)[Stored(i)] == (if 4 <= i < 7 then 1 else 0) && multiset(a)[GridShown] == 1
    requires multiset(m)[Stored(i)] == (if 7 <= i < 10 then 1 else 0) && multiset(m)[GridShown] == 1
    requires multiset(n)[Stored(i)] == 0 && multiset(n)[GridShown] == 0
    ensures multiset(t + p + h + a + m + n)[Stored(i)] == if i < NumVariables then 1 else 0
    ensures multiset(t + p + h + a + m + n)[GridShown] == 5
    ensures multiset(t + p + h + a + n)[Stored(i)] == if i < 7 then 1 else 0
    ensures multiset(t + p + h + a + n)[GridShown] == 4
  {
  }

  /** A full iteration sets every gauge exactly once; on a timeout the nine
      particulate gauges are not set and every other gauge is set exactly
      once. */
  lemma ShapeGauges(g: Gauge)
    ensures multiset(FullShape)[GaugeSet(g)] == 1
    ensures multiset(TimeoutShape)[GaugeSet(g)] == if FromParticulate(g) then 0 else 1
  {
    TemperatureGauges();
    PressureGauges();
    HumidityLightGauges();
    GasGauges();
    ParticulateGauges(g);
    NoiseGauges();
    GaugeTally(TemperatureShape, PressureShape, HumidityLightShape, GasShape, ParticulateShape, NoiseShape, g);
  }

  /** A full iteration pushes every history exactly once and draws the grid
      five times; on a timeout histories 0 to 6 are pushed once, the
      particulate histories 7 to 9 not at all, and the grid is drawn four
      times. */
  lemma ShapeStores(i: nat)
    ensures multiset(FullShape)[Stored(i)] == if i < NumVariables then 1 else 0
    ensures multiset(FullShape)[GridShown] == 5
    ensures multiset(TimeoutShape)[Stored(i)] == if i < 7 then 1 else 0
    ensures multiset(TimeoutShape)[GridShown] == 4
  {
    TemperatureStores();
    PressureStores();
    HumidityLightStores();
    GasStores();
    ParticulateStores(i);
    NoiseStores();
    StoreTally(TemperatureShape, PressureShape, HumidityLightShape, GasShape, ParticulateShape, NoiseShape, i);
  }

  /** Neither shape contains a single-variable graph or the waveform. */
  lemma NoGraphsInCycle(i: nat)
    ensures GraphShown(i) !in FullShape && WaveformShown !in FullShape
    ensures GraphShown(i) !in TimeoutShape && WaveformShown !in TimeoutShape
  {
  }

  /** Counting the events of one "everything" iteration: every gauge is set
      once, except that a particulate timeout skips the nine particulate
      gauges. */
  lemma EverythingGauges(b: Board, r: Readings, g: Gauge)
    requires Valid(b)
    ensures Count(Everything(b, r).1, GaugeSet(g)) == if FromParticulate(g) && r.particulate.None? then 0 else 1
  {
    ShapeGauges(g);
  }

  /** Every history is pushed once, except that a particulate timeout skips
      histories 7 to 9; the grid is drawn once per group that ran: five
      times, or four on a timeout. */
  lemma EverythingStores(b: Board, r: Readings, i: nat)
    requires Valid(b)
    ensures Count(Everything(b, r).1, Stored(i))
         == if i < NumVariables && !(7 <= i && r.particulate.None?) then 1 else 0
    ensures Count(Everything(b, r).1, GridShown) == if r.particulate.Some? then 5 else 4
  {
    ShapeStores(i);
  }

  /** No single-variable graph and no waveform is drawn in this mode. */
  lemma EverythingDrawsNoGraph(b: Board, r: Readings, i: nat)
    requires Valid(b)
    ensures Count(Everything(b, r).1, GraphShown(i)) == 0
    ensures Count(Everything(b, r).1, WaveformShown) == 0
  {
    NoGraphsInCycle(i);
  }

  /** The overall noise amplitude is scaled but reaches no gauge and no
      history: changing it changes nothing this mode reports. */
  lemma AmplitudeNotForwarded(w: seq<real>, r: Readings, amp: real, g: Gauge, i: nat)
    requires |w| == Compensation.WindowSize && i < NumVariables
    ensures GaugeValue(w, r.(noise := r.noise.(amp := amp)), g) == GaugeValue(w, r, g)
    ensures Sample(w, r.(noise := r.noise.(amp := amp)), i) == Sample(w, r, i)
    ensures NoiseGroup(w, r.(noise := r.noise.(amp := amp))) == NoiseGroup(w, r)
  {
  }

  /** With something close to the sensor, the light gauge and history get
      the stand-in 1 and the lux reading reaches nothing. */
  lemma LuxIgnoredWhenNear(w: seq<real>, r: Readings, lux: real, g: Gauge, i: nat)
    requires |w| == Compensation.WindowSize && i < NumVariables && r.proximity >= NearProximity
    ensures GaugeValue(w, r, Light) == Sample(w, r, 3) == Some(1.0)
    ensures GaugeValue(w, r.(lux := lux), g) == GaugeValue(w, r, g)
    ensures Sample(w, r.(lux := lux), i) == Sample(w, r, i)
  {
  }

  /** The light gauge and history 3 get the lux reading when nothing is
      close to the sensor, and the stand-in 1 when something is. */
  lemma LightGaugeAndHistory(w: seq<real>, r: Readings)
    requires |w| == Compensation.WindowSize
    ensures r.proximity < NearProximity ==> GaugeValue(w, r, Light) == Sample(w, r, 3) == Some(r.lux)
    ensures r.proximity >= NearProximity ==> GaugeValue(w, r, Light) == Sample(w, r, 3) == Some(1.0)
  {
  }
}

=== FILE: dashboard.dfy ===
/**
 The state the main loop keeps between iterations besides the mode: one
 history per tracked variable and the CPU-temperature window, and what each
 variable is given in one iteration.
 */
module Dashboard {
  import History
  import Compensation
  import Thresholds
  import Modes
  import opened Sensors

  /** Temperature, pressure, humidity, light, three gases, three particulate
      sizes: one history per entry of the variable list. */
  const NumVariables: nat := |Modes.Variables|

  datatype Board = Board(values: seq<seq<real>>, cpuTemps: seq<real>)

  /** One non-empty history per variable, and a full CPU window. */
  predicate Valid(b: Board)
  {
    && |b.values| == NumVariables
    && (forall i :: 0 <= i < NumVariables ==> |b.values[i]| > 0)
    && |b.cpuTemps| == Compensation.WindowSize
  }

  /** Start-up: every history is `width` copies of 1 (the display width,
      which is positive for any panel), and the CPU window is five copies of
      the first CPU reading, so the first average is that reading. */
  function Init(width: nat, cpu: real): (b: Board)
    requires width > 0
    ensures Valid(b)
    ensures forall i :: 0 <= i < NumVariables ==> |b.values[i]| == width
    ensures forall i, k :: 0 <= i < NumVariables && 0 <= k < width ==> b.values[i][k] == 1.0
    ensures Compensation.Mean(b.cpuTemps) == cpu
  {
    Board(seq(NumVariables, _ => History.Fill(width, 1.0)), Compensation.InitialWindow(cpu))
  }

  /** `save_data` / the push in `display_text`: push `v` onto history `i`,
      nothing else changes. */
  function Save(b: Board, i: nat, v: real): (b': Board)
    requires Valid(b) && i < NumVariables
    ensures Valid(b')
    ensures |b'.values[i]| == |b.values[i]|
    ensures b'.values[i] == History.Push(b.values[i], v)
    ensures forall j :: 0 <= j < NumVariables && j != i ==> b'.values[j] == b.values[j]
    ensures b'.cpuTemps == b.cpuTemps
  {
    b.(values := b.values[i := History.Push(b.values[i], v)])
  }

  /** The newest sample of history `i` (`values[variable][-1]`). */
  function Latest(b: Board, i: nat): real
    requires Valid(b) && i < NumVariables
  {
    b.values[i][|b.values[i]| - 1]
  }

  /** One cell of the all-variables grid: a value and its threshold colour. */
  datatype Cell = Cell(value: real, colour: Thresholds.Rgb)

  /** `display_everything`: every variable's newest sample, in the palette
      colour of the band of that variable's own limits it falls in. */
  function Grid(b: Board): (cells: seq<Cell>)
    requires Valid(b)
    ensures |cells| == NumVariables
    ensures forall i :: 0 <= i < NumVariables ==>
      cells[i].value == Latest(b, i) && cells[i].colour in Thresholds.Palette
    ensures forall i, k :: 0 <= i < NumVariables && 0 <= k < |Thresholds.Palette| ==>
      (cells[i].colour == Thresholds.Palette[k] <==> Thresholds.InBand(Latest(b, i), Thresholds.Limits[i], k))
  {
    Thresholds.LimitsWellFormed();
    seq(NumVariables, i requires 0 <= i < NumVariables =>
      Cell(Latest(b, i), Thresholds.Colour(i, Latest(b, i))))
  }

  /** The value variable `i` receives this iteration, or `None` for the
      particulate variables when the read timed out. `window` is the CPU
      window with this iteration's reading already rotated in; temperature
      is the probe reading compensated against its average. Gases are in
      kilo-ohms. */
  function Sample(window: seq<real>, r: Readings, i: nat): (v: Option<real>)
    requires |window| == Compensation.WindowSize && i < NumVariables
    ensures v.None? <==> 7 <= i && r.particulate.None?
  {
    match i
    case 0 => Some(Compensation.Compensate(r.temperature, Compensation.Mean(window)))
    case 1 => Some(r.pressure)
    case 2 => Some(r.humidity)
    case 3 => Some(LightValue(r.proximity, r.lux))
    case 4 => Some(r.gas.oxidising / GasDivisor)
    case 5 => Some(r.gas.reducing / GasDivisor)
    case 6 => Some(r.gas.nh3 / GasDivisor)
    case 7 => if r.particulate.Some? then Some(r.particulate.value.pm1) else None
    case 8 => if r.particulate.Some? then Some(r.particulate.value.pm25) else None
    case _ => if r.particulate.Some? then Some(r.particulate.value.pm10) else None
  }

  /** History `i` after an iteration that samples it: pushed when there is a
      value, untouched otherwise. */
  function Updated(b: Board, window: seq<real>, r: Readings, i: nat): seq<real>
    requires Valid(b) && |window| == Compensation.WindowSize && i < NumVariables
  {
    match Sample(window, r, i)
    case Some(v) => History.Push(b.values[i], v)
    case None => b.values[i]
  }
}

=== FILE: gradient.dfy ===
/**
 Gradient mapping for the single-variable graph: every sample of a history
 is scaled by `(v - vmin + 1) / (vmax - vmin + 1)` and the scaled value
 picks a hue between red (high) and blue (low).
 */
module Gradient {

  /** The smallest sample. */
  function Min(s: seq<real>): (m: real)
    requires |s| > 0
    ensures m in s
    ensures forall i :: 0 <= i < |s| ==> m <= s[i]
  {
    if |s| == 1 then s[0]
    else
      var rest := Min(s[1..]);
      if s[0] <= rest then s[0] else rest
  }

  /** The largest sample. */
  function Max(s: seq<real>): (m: real)
    requires |s| > 0
    ensures m in s
    ensures forall i :: 0 <= i < |s| ==> s[i] <= m
  {
    if |s| == 1 then s[0]
    else
      var rest := Max(s[1..]);
      if s[0] >= rest then s[0] else rest
  }

  /** One sample scaled against the history's range; the `+ 1` keeps the
      divisor positive even when every sample is equal. */
  function Scale(v: real, lo: real, hi: real): (r: real)
    requires lo <= hi
    ensures lo <= v <= hi ==> 0.0 < r <= 1.0
    ensures lo <= v ==> (r == 1.0 <==> v == hi)
  {
    var d := hi - lo + 1.0;
    var r := (v - lo + 1.0) / d;
    assert r * d == v - lo + 1.0;
    r
  }

  /** The scaled history the graph is drawn from (`min` of an empty list
      raises, and the graph is only drawn right after a push, so the history
      is never empty here). Every entry lies in (0, 1]. */
  function Normalise(s: seq<real>): (c: seq<real>)
    requires |s| > 0
    ensures |c| == |s|
    ensures forall i :: 0 <= i < |c| ==> 0.0 < c[i] <= 1.0
  {
    var lo := Min(s);
    var hi := Max(s);
    var c := seq(|s|, i requires 0 <= i < |s| => Scale(s[i], lo, hi));
    assert forall i :: 0 <= i < |c| ==> lo <= s[i] <= hi && c[i] == Scale(s[i], lo, hi);
    c
  }

  /** The hue of a scaled sample: `(1 - c) * 0.6`, red at 0, blue towards 0.6. */
  function Hue(c: real): (h: real)
    ensures 0.0 < c <= 1.0 ==> 0.0 <= h < 0.6
    ensures c == 1.0 <==> h == 0.0
  {
    (1.0 - c) * 0.6
  }

  /** A sample equal to the history's maximum scales to exactly 1 (the
      reddest hue, 0). */
  lemma MaxSampleIsOne(s: seq<real>, i: nat)
    requires i < |s| && s[i] == Max(s)
    ensures Normalise(s)[i] == 1.0
    ensures Hue(Normalise(s)[i]) == 0.0
  {
  }

  /** A history whose samples are all equal scales every sample to 1, and
      no division by zero occurs. */
  lemma ConstantHistoryIsOne(s: seq<real>, v: real)
    requires |s| > 0
    requires forall i :: 0 <= i < |s| ==> s[i] == v
    ensures forall i :: 0 <= i < |s| ==> Normalise(s)[i] == 1.0
  {
    assert Min(s) == v && Max(s) == v;
  }

  /** How far the history's largest sample lies above its smallest. */
  function Spread(s: seq<real>): (w: real)
    requires |s| > 0
    ensures 0.0 <= w
    ensures w == 0.0 <==> forall i :: 0 <= i < |s| ==> s[i] == s[0]
  {
    assert (forall i :: 0 <= i < |s| ==> s[i] == s[0]) ==> Min(s) == Max(s);
    Max(s) - Min(s)
  }

  /** Reference value: the bottom of a history of spread `w` scales to
      `1 / (w + 1)`, never to 0. */
  function LowestScale(w: real): real
    requires 0.0 <= w
  {
    1.0 / (w + 1.0)
  }

  /** Reference value: the hue of that bottom, `0.6 w / (w + 1)`, towards
      blue (0.6) as the spread widens and red (0) when it is 0. */
  function LowestHue(w: real): real
    requires 0.0 <= w
  {
    0.6 * w / (w + 1.0)
  }

  /** The minimum sample gets the smallest scaled value, `1 / (spread + 1)`,
      and so the bluest hue of the history, `0.6 spread / (spread + 1)`. */
  lemma {:induction false} MinSampleIsBluest(s: seq<real>, i: nat)
    requires i < |s| && s[i] == Min(s)
    ensures forall j :: 0 <= j < |s| ==> Normalise(s)[i] <= Normalise(s)[j]
    ensures forall j :: 0 <= j < |s| ==> Hue(Normalise(s)[j]) <= Hue(Normalise(s)[i])
    ensures Normalise(s)[i] == LowestScale(Spread(s))
    ensures Hue(Normalise(s)[i]) == LowestHue(Spread(s))
  {
    MinSampleOrder(s, i);
    MinSampleValue(s, i);
  }

  lemma MinSampleOrder(s: seq<real>, i: nat)
    requires i < |s| && s[i] == Min(s)
    ensures forall j :: 0 <= j < |s| ==> Normalise(s)[i] <= Normalise(s)[j]
    ensures forall j :: 0 <= j < |s| ==> Hue(Normalise(s)[j]) <= Hue(Normalise(s)[i])
  {
    forall j | 0 <= j < |s|
      ensures Normalise(s)[i] <= Normalise(s)[j]
      ensures Hue(Normalise(s)[j]) <= Hue(Normalise(s)[i])
    {
      NormaliseMonotone(s, i, j);
    }
  }

  lemma {:induction false} MinSampleValue(s: seq<real>, i: nat)
    requires i < |s| && s[i] == Min(s)
    ensures Normalise(s)[i] == LowestScale(Spread(s))
    ensures Hue(Normalise(s)[i]) == LowestHue(Spread(s))
  {
    NormaliseAt(s, i);
    BluestEnd(Min(s), Max(s));
  }

  /** The bottom of the range scales to `1 / (max - min + 1)` and gets the
      hue `0.6 (max - min) / (max - min + 1)`. */
  lemma BluestEnd(lo: real, hi: real)
    requires lo <= hi
    ensures Scale(lo, lo, hi) == LowestScale(hi - lo)
    ensures Hue(Scale(lo, lo, hi)) == LowestHue(hi - lo)
  {
    var d := hi - lo + 1.0;
    var c := Scale(lo, lo, hi);
    assert c * d == 1.0;
    assert Hue(c) * d == 0.6 * d - 0.6 * (c * d);
  }

  /** The hue falls by 0.6 for every unit the scaled value rises. */
  lemma HueSlope(c: real, c': real)
    ensures Hue(c) - Hue(c') == 0.6 * (c' - c)
  {
  }

  lemma NormaliseAt(s: seq<real>, i: nat)
    requires i < |s|
    ensures Normalise(s)[i] == Scale(s[i], Min(s), Max(s))
  {
  }

  /** Every hue drawn lies in [0, 0.6): the gradient never wraps round past
      blue towards magenta. */
  lemma HueRange(s: seq<real>, i: nat)
    requires i < |s|
    ensures 0.0 <= Hue(Normalise(s)[i]) < 0.6
  {
  }

  /** Scaling keeps the order of samples, strictly: a larger sample is
      scaled higher and so drawn redder. */
  lemma NormaliseMonotone(s: seq<real>, i: nat, j: nat)
    requires i < |s| && j < |s|
    ensures s[i] <= s[j] <==> Normalise(s)[i] <= Normalise(s)[j]
    ensures s[i] < s[j] <==> Normalise(s)[i] < Normalise(s)[j]
    ensures s[i] <= s[j] <==> Hue(Normalise(s)[j]) <= Hue(Normalise(s)[i])
  {
    var lo, hi := Min(s), Max(s);
    var d := hi - lo + 1.0;
    assert d > 0.0;
    ScaleMonotone(s[i], s[j], lo, hi);
  }

  lemma ScaleMonotone(v: real, w: real, lo: real, hi: real)
    requires lo <= hi
    ensures v <= w <==> Scale(v, lo, hi) <= Scale(w, lo, hi)
    ensures v < w <==> Scale(v, lo, hi) < Scale(w, lo, hi)
  {
    var d := hi - lo + 1.0;
    assert Scale(w, lo, hi) - Scale(v, lo, hi) == (w - v) / d;
  }
}

=== FILE: history.dfy ===
/**
 The fixed-length history kept for every tracked variable (and, with
 length 5, for the CPU-temperature smoothing window). The program keeps
 each history as a list and rotates it with "drop the head, append the
 new sample"; this module models that list operation and what a run of
 rotations leaves behind.
 */
module History {

  /** `[v] * n`: a history of `n` copies of `v`. */
  function Fill(n: nat, v: real): (b: seq<real>)
    ensures |b| == n
    ensures forall i :: 0 <= i < n ==> b[i] == v
  {
    seq(n, _ => v)
  }

  /** `buf[1:] + [v]`. Python's slice of an empty list is empty, so pushing
      onto an empty history yields the one-element history `[v]`. */
  function Push(buf: seq<real>, v: real): (r: seq<real>)
    ensures |buf| > 0 ==> |r| == |buf|
    ensures |buf| == 0 ==> r == [v]
    ensures r[|r| - 1] == v
    ensures forall i :: 0 <= i < |r| - 1 ==> r[i] == buf[i + 1]
  {
    if |buf| == 0 then [v] else buf[1..] + [v]
  }

  /** Pushes `vs` one after another, oldest first. */
  function PushAll(buf: seq<real>, vs: seq<real>): (r: seq<real>)
    decreases |vs|
  {
    if |vs| == 0 then buf else PushAll(Push(buf, vs[0]), vs[1..])
  }

  /** A non-empty history never changes length, however many samples are pushed. */
  lemma {:induction false} PushAllKeepsLength(buf: seq<real>, vs: seq<real>)
    requires |buf| > 0
    ensures |PushAll(buf, vs)| == |buf|
    decreases |vs|
  {
    if |vs| > 0 {
      PushAllKeepsLength(Push(buf, vs[0]), vs[1..]);
    }
  }

  /** After pushing `vs`, a non-empty history holds exactly the newest `|buf|`
      entries of the old history followed by `vs`, in push order. */
  lemma {:induction false} PushAllWindow(buf: seq<real>, vs: seq<real>)
    requires |buf| > 0
    ensures PushAll(buf, vs) == (buf + vs)[|vs|..]
    decreases |vs|
  {
    if |vs| > 0 {
      var next := Push(buf, vs[0]);
      PushAllWindow(next, vs[1..]);
      assert next + vs[1..] == (buf + vs)[1..];
      assert (next + vs[1..])[|vs| - 1..] == (buf + vs)[|vs|..];
    }
  }

  /** Once at least `|buf|` samples have been pushed, the history is exactly
      the last `|buf|` of them, oldest first: nothing of the initial fill is left. */
  lemma LastSamplesOnly(buf: seq<real>, vs: seq<real>)
    requires 0 < |buf| <= |vs|
    ensures PushAll(buf, vs) == vs[|vs| - |buf|..]
  {
    PushAllWindow(buf, vs);
    assert (buf + vs)[|vs|..] == vs[|vs| - |buf|..];
  }
}

=== FILE: loop.dfy ===
/**
 The main loop: each iteration reads the proximity sensor, lets a tap
 advance the mode, and then does what the current mode shows: a graph of one
 variable (modes 0 to 9), a noise waveform (10 and 11), or the "everything"
 screen together with all metric gauges (12).
 */
module Loop {
  import History
  import Compensation
  import Gradient
  import Modes
  import opened Sensors
  import opened Dashboard
  import opened Trace
  import Cycle

  /** What survives from one iteration to the next. */
  datatype State = State(debounce: Modes.Debounce, board: Board)

  /** The start of the loop: mode 12, no advance yet, histories of `width`
      ones, the CPU window filled with the first CPU reading. */
  function Initial(width: nat, cpu: real): (s: State)
    requires width > 0
    ensures s.debounce == Modes.Start && Valid(s.board)
    ensures Compensation.Mean(s.board.cpuTemps) == cpu
  {
    State(Modes.Start, Init(width, cpu))
  }

  /** The CPU window a mode works with: rotated in modes 0 and 12, which read
      the CPU temperature, untouched otherwise. In those two modes the
      average compensation uses is that of the four newest old readings and
      the new one; in every other mode the average stays as it was. */
  function WindowFor(b: Board, r: Readings, mode: nat): (w: seq<real>)
    requires Valid(b)
    ensures |w| == Compensation.WindowSize
    ensures mode == 0 || mode == Modes.StartMode ==> w == History.Push(b.cpuTemps, r.cpu)
    ensures mode == 0 || mode == Modes.StartMode ==>
      Compensation.Mean(w) == (b.cpuTemps[1] + b.cpuTemps[2] + b.cpuTemps[3] + b.cpuTemps[4] + r.cpu) / 5.0
    ensures mode != 0 && mode != Modes.StartMode ==> w == b.cpuTemps
    ensures mode != 0 && mode != Modes.StartMode ==> Compensation.Mean(w) == Compensation.Mean(b.cpuTemps)
  {
    if mode == 0 || mode == Modes.StartMode then Compensation.Smooth(b.cpuTemps, r.cpu).0 else b.cpuTemps
  }

  /** `display_text` for variable `m`: push this iteration's value onto its
      history and draw the history as a gradient graph. A particulate read
      that times out (modes 7 to 9) skips both. */
  function SingleMode(b: Board, r: Readings, m: nat): (out: (Board, seq<Event>))
    requires Valid(b) && m < NumVariables
    ensures Valid(out.0)
    ensures out.0.cpuTemps == WindowFor(b, r, m)
    ensures out.0.values[m] == Updated(b, out.0.cpuTemps, r, m)
    ensures forall i :: 0 <= i < NumVariables && i != m ==> out.0.values[i] == b.values[i]
    ensures Sample(out.0.cpuTemps, r, m).None? ==> out == (b, [])
    ensures Sample(out.0.cpuTemps, r, m).Some? ==>
      && Kinds(out.1) == [GraphShown(m)]
      && out.1[0].colours == Gradient.Normalise(out.0.values[m])
  {
    var w := WindowFor(b, r, m);
    match Sample(w, r, m)
    case None => (b, [])
    case Some(v) =>
      var b1 := Save(b.(cpuTemps := w), m, v);
      (b1, [ShowGraph(m, Gradient.Normalise(b1.values[m]))])
  }

  /** What the current mode does. Modes 10 and 11 only scroll the noise
      waveform; a mode outside 0 .. 12 does nothing. Only mode 12 sets a
      metric gauge, and the modes from 10 on other than 12 leave every
      history and the CPU window as they were. */
  function Dispatch(b: Board, r: Readings, mode: nat): (out: (Board, seq<Event>))
    requires Valid(b)
    ensures Valid(out.0)
    ensures mode < NumVariables ==> out == SingleMode(b, r, mode)
    ensures mode == 10 || mode == 11 ==> out == (b, [ShowWaveform])
    ensures mode == Modes.StartMode ==> out == Cycle.Everything(b, r)
    ensures mode > Modes.StartMode ==> out == (b, [])
    ensures mode != Modes.StartMode ==> forall g :: Count(out.1, GaugeSet(g)) == 0
    ensures NumVariables <= mode && mode != Modes.StartMode ==> out.0 == b
  {
    if mode < NumVariables then
      SingleModeSetsNoGauge(b, r, mode);
      SingleMode(b, r, mode)
    else if mode == 10 || mode == 11 then
      WaveformSetsNoGauge();
      (b, [ShowWaveform])
    else if mode == Modes.StartMode then Cycle.Everything(b, r)
    else (b, [])
  }

  /** One iteration of the loop: the mode update first, then the new mode's
      work, with `count` the modulus the mode is taken by. The advance time
      moves exactly on a debounced tap, an iteration without one keeps the
      mode, and gauges are set only when the mode after the update is 12. */
  function Tick(s: State, r: Readings, now: real, count: nat): (out: (State, seq<Event>))
    requires Valid(s.board) && count > 0
    ensures Valid(out.0.board)
    ensures out.0.debounce == Modes.Advance(s.debounce, r.proximity, now, count)
    ensures (out.0.board, out.1) == Dispatch(s.board, r, out.0.debounce.mode)
    ensures out.0.debounce.lastPage != s.debounce.lastPage <==> Modes.Triggered(s.debounce, r.proximity, now)
    ensures !Modes.Triggered(s.debounce, r.proximity, now) ==> out.0.debounce == s.debounce
    ensures out.0.debounce.mode != Modes.StartMode ==> forall g :: Count(out.1, GaugeSet(g)) == 0
  {
    var d := Modes.Advance(s.debounce, r.proximity, now, count);
    var (b, tr) := Dispatch(s.board, r, d.mode);
    (State(d, b), tr)
  }

  /** One iteration's inputs: all sensor readings and the clock. */
  datatype Input = Input(readings: Readings, now: real)

  /** A run of iterations; the events of all of them, in order. */
  function Ticks(s: State, ins: seq<Input>, count: nat): (out: (State, seq<Event>))
    requires Valid(s.board) && count > 0
    ensures Valid(out.0.board)
    decreases |ins|
  {
    if |ins| == 0 then (s, [])
    else
      var (t, e) := Tick(s, ins[0].readings, ins[0].now, count);
      var (u, f) := Ticks(t, ins[1..], count);
      (u, e + f)
  }

  /** A single-variable mode sets no metric gauge. */
  lemma SingleModeSetsNoGauge(b: Board, r: Readings, m: nat)
    requires Valid(b) && m < NumVariables
    ensures forall g :: Count(SingleMode(b, r, m).1, GaugeSet(g)) == 0
  {
    var tr := SingleMode(b, r, m).1;
    forall g ensures Count(tr, GaugeSet(g)) == 0 {
      if tr != [] {
        OnlyKind(tr, GraphShown(m), GaugeSet(g));
      }
    }
  }

  /** A waveform frame sets no metric gauge. */
  lemma WaveformSetsNoGauge()
    ensures forall g :: Count([ShowWaveform], GaugeSet(g)) == 0
  {
    forall g ensures Count([ShowWaveform], GaugeSet(g)) == 0 {
      OnlyKind([ShowWaveform], WaveformShown, GaugeSet(g));
    }
  }

  lemma OnlyKind(tr: seq<Event>, k: Kind, k': Kind)
    requires Kinds(tr) == [k] && k != k'
    ensures Count(tr, k') == 0
  {
  }

  /** As written, once the mode is below 11 the metric gauges are never set
      again, however long the loop runs: the exporter keeps serving the last
      values of the "everything" pass. */
  lemma {:induction false} GaugesFrozen(s: State, ins: seq<Input>, g: Gauge)
    requires Valid(s.board) && s.debounce.mode < 11
    ensures Ticks(s, ins, Modes.ModeCount).0.debounce.mode < 11
    ensures Count(Ticks(s, ins, Modes.ModeCount).1, GaugeSet(g)) == 0
    decreases |ins|
  {
    if |ins| > 0 {
      var (t, e) := Tick(s, ins[0].readings, ins[0].now, Modes.ModeCount);
      GaugesFrozen(t, ins[1..], g);
      var f := Ticks(t, ins[1..], Modes.ModeCount).1;
      KindsAppend(e, f);
    }
  }

  /** From the start, a loop run whose first tap has come sets no gauge
      afterwards: the first advance lands on mode 2, below 11. */
  lemma FirstTapFreezesGauges(r: Readings, now: real, width: nat, cpu: real, ins: seq<Input>, g: Gauge)
    requires width > 0 && Modes.Triggered(Modes.Start, r.proximity, now)
    ensures Tick(Initial(width, cpu), r, now, Modes.ModeCount).0.debounce.mode == 2
    ensures Kinds(Tick(Initial(width, cpu), r, now, Modes.ModeCount).1) == [GraphShown(2)]
    ensures Count(Ticks(Tick(Initial(width, cpu), r, now, Modes.ModeCount).0, ins, Modes.ModeCount).1, GaugeSet(g)) == 0
  {
    Modes.AsWrittenTransitions();
    GaugesFrozen(Tick(Initial(width, cpu), r, now, Modes.ModeCount).0, ins, g);
  }

  /** Until the first tap the loop stays in mode 12 and every iteration is
      an "everything" pass. */
  lemma UntappedIsEverything(s: State, r: Readings, now: real, count: nat)
    requires Valid(s.board) && count > 0
    requires s.debounce.mode == Modes.StartMode && !Modes.Triggered(s.debounce, r.proximity, now)
    ensures Tick(s, r, now, count).0.debounce == s.debounce
    ensures Tick(s, r, now, count).1 == Cycle.Everything(s.board, r).1
    ensures Kinds(Tick(s, r, now, count).1) == if r.particulate.Some? then Cycle.FullShape else Cycle.TimeoutShape
  {
  }

  /** In a single-variable mode the sample just pushed is drawn at the right
      edge of the graph; when it is the history's largest, it is drawn at
      full height in pure red (hue 0), and every other column is at most as
      high. */
  lemma NewestColumn(b: Board, r: Readings, m: nat)
    requires Valid(b) && m < NumVariables
    requires Sample(WindowFor(b, r, m), r, m).Some?
    ensures var h := SingleMode(b, r, m).0.values[m];
      && h[|h| - 1] == Sample(WindowFor(b, r, m), r, m).value
      && (h[|h| - 1] == Gradient.Max(h) ==>
            && Gradient.Normalise(h)[|h| - 1] == 1.0
            && Gradient.Hue(Gradient.Normalise(h)[|h| - 1]) == 0.0
            && forall j :: 0 <= j < |h| ==> Gradient.Normalise(h)[j] <= 1.0)
  {
    var h := SingleMode(b, r, m).0.values[m];
    if h[|h| - 1] == Gradient.Max(h) {
      Gradient.MaxSampleIsOne(h, |h| - 1);
    }
  }

  /** With the intended modulus 13 the mode cycle does come back: a tap in
      the second noise mode (11) returns to 12 and runs an "everything"
      pass again. */
  lemma IntendedCountReturnsToEverything(s: State, r: Readings, now: real)
    requires Valid(s.board) && s.debounce.mode == 11 && Modes.Triggered(s.debounce, r.proximity, now)
    ensures Tick(s, r, now, Modes.IntendedModeCount).0.debounce.mode == Modes.StartMode
    ensures Tick(s, r, now, Modes.IntendedModeCount).1 == Cycle.Everything(s.board, r).1
  {
  }

  /** As written, the same tap in mode 10 (11 is never reached) wraps to
      mode 0 and shows the temperature graph instead. */
  lemma AsWrittenWrapsToTemperature(s: State, r: Readings, now: real)
    requires Valid(s.board) && s.debounce.mode == 10 && Modes.Triggered(s.debounce, r.proximity, now)
    ensures Tick(s, r, now, Modes.ModeCount).0.debounce.mode == 0
    ensures Kinds(Tick(s, r, now, Modes.ModeCount).1) == [GraphShown(0)]
  {
  }

  /** In the light mode the sample pushed onto history 3, and graphed, is
      the lux reading when nothing is close to the sensor and 1 otherwise. */
  lemma LightModeValue(b: Board, r: Readings)
    requires Valid(b)
    ensures r.proximity < NearProximity ==> SingleMode(b, r, 3).0.values[3] == History.Push(b.values[3], r.lux)
    ensures r.proximity >= NearProximity ==> SingleMode(b, r, 3).0.values[3] == History.Push(b.values[3], 1.0)
    ensures Kinds(SingleMode(b, r, 3).1) == [GraphShown(3)]
  {
  }

  /** The particulate sensor matters only to modes 7 to 9: whatever it
      reports, or if it times out, every other single-variable mode does the
      same. */
  lemma ParticulateOnlyInItsModes(b: Board, r: Readings, m: nat, p: Option<Particulate>)
    requires Valid(b) && m < 7
    ensures SingleMode(b, r.(particulate := p), m) == SingleMode(b, r, m)
  {
  }

  /** The proximity readings and clock of a run, as the mode machine sees them. */
  function TapsOf(ins: seq<Input>): (taps: seq<Modes.Tap>)
    ensures |taps| == |ins|
    ensures forall i :: 0 <= i < |ins| ==> taps[i] == Modes.Tap(ins[i].readings.proximity, ins[i].now)
  {
    seq(|ins|, i requires 0 <= i < |ins| => Modes.Tap(ins[i].readings.proximity, ins[i].now))
  }

  /** The mode state of a loop run is that of the mode machine run on the
      run's taps: the board and the sensors other than proximity have no
      say in it. */
  lemma {:induction false} TicksFollowRun(s: State, ins: seq<Input>, count: nat)
    requires Valid(s.board) && count > 0
    ensures Ticks(s, ins, count).0.debounce == Modes.Run(s.debounce, TapsOf(ins), count)
    decreases |ins|
  {
    if |ins| > 0 {
      var t := TicksStep(s, ins, count);
      TicksFollowRun(t, ins[1..], count);
      TapsOfTail(ins);
    }
  }

  /** The first iteration of a run, and the state it leaves for the rest. */
  lemma TicksStep(s: State, ins: seq<Input>, count: nat) returns (t: State)
    requires Valid(s.board) && count > 0 && |ins| > 0
    ensures Valid(t.board)
    ensures t.debounce == Modes.Advance(s.debounce, ins[0].readings.proximity, ins[0].now, count)
    ensures Ticks(s, ins, count).0 == Ticks(t, ins[1..], count).0
    ensures t == Tick(s, ins[0].readings, ins[0].now, count).0
  {
    t := Tick(s, ins[0].readings, ins[0].now, count).0;
  }

  /** However long the loop runs, every history keeps the length it had:
      a push onto a full history drops its oldest sample. */
  lemma {:induction false} TicksKeepWidths(s: State, ins: seq<Input>, count: nat)
    requires Valid(s.board) && count > 0
    ensures forall i :: 0 <= i < NumVariables ==>
      |Ticks(s, ins, count).0.board.values[i]| == |s.board.values[i]|
    decreases |ins|
  {
    if |ins| > 0 {
      var t := TicksStep(s, ins, count);
      DispatchKeepsWidths(s.board, ins[0].readings, t.debounce.mode);
      TicksKeepWidths(t, ins[1..], count);
    }
  }

  /** One iteration keeps every history's length, whatever the mode. */
  lemma DispatchKeepsWidths(b: Board, r: Readings, mode: nat)
    requires Valid(b)
    ensures forall i :: 0 <= i < NumVariables ==> |Dispatch(b, r, mode).0.values[i]| == |b.values[i]|
  {
    var b' := Dispatch(b, r, mode).0;
    forall i | 0 <= i < NumVariables
      ensures |b'.values[i]| == |b.values[i]|
    {
      if mode < NumVariables && i == mode {
        UpdatedKeepsWidth(b, b'.cpuTemps, r, i);
      } else if mode == Modes.StartMode {
        UpdatedKeepsWidth(b, b'.cpuTemps, r, i);
      }
    }
  }

  lemma UpdatedKeepsWidth(b: Board, w: seq<real>, r: Readings, i: nat)
    requires Valid(b) && |w| == Compensation.WindowSize && i < NumVariables
    ensures |Updated(b, w, r, i)| == |b.values[i]|
  {
  }

  lemma TapsOfTail(ins: seq<Input>)
    requires |ins| > 0
    ensures TapsOf(ins)[0] == Modes.Tap(ins[0].readings.proximity, ins[0].now)
    ensures TapsOf(ins)[1..] == TapsOf(ins[1..])
  {
  }

  /** As written, a loop run from the start either has not advanced yet or
      ends below mode 11: the "everything" mode is not seen again. */
  lemma LoopLosesEverything(width: nat, cpu: real, ins: seq<Input>)
    requires width > 0
    ensures var d := Ticks(Initial(width, cpu), ins, Modes.ModeCount).0.debounce;
      d == Modes.Start || d.mode < 11
  {
    var s := Initial(width, cpu);
    TicksFollowRun(s, ins, Modes.ModeCount);
    Modes.EverythingModeLost(TapsOf(ins));
  }

  /** However many iterations fall within one half second, the loop
      advances the mode at most once among them. */
  lemma LoopAdvancesOncePerDelay(s: State, ins: seq<Input>, count: nat, from: real)
    requires Valid(s.board) && count > 0
    requires forall i :: 0 <= i < |ins| ==> from <= ins[i].now <= from + Modes.Delay
    ensures Modes.Advances(s.debounce, TapsOf(ins), count) <= 1
  {
    Modes.AtMostOneAdvancePerDelay(s.debounce, TapsOf(ins), count, from);
  }
}

=== FILE: modes.dfy ===
/**
 The display-mode state machine. Every loop iteration reads the proximity
 sensor; a tap (proximity above 1500) advances the mode, but only when more
 than half a second has passed since the last advance. The mode number is
 taken modulo `count`; the program as written uses `len(variables) + 1`,
 which is 11, while its modes run from 0 to 12.
 */
module Modes {

  /** The tracked variables, in display and limit-table order. */
  const Variables: seq<string> :=
    ["temperature", "pressure", "humidity", "light", "oxidised",
     "reduced", "nh3", "pm1", "pm25", "pm10"]

  /** The modulus the program uses: `len(variables) + 1`. */
  const ModeCount: nat := |Variables| + 1

  /** The modulus that would reach every mode the program dispatches on
      (0 to 9 single variables, 10 and 11 noise, 12 everything). */
  const IntendedModeCount: nat := 13

  /** The "everything" mode the program starts in. */
  const StartMode: nat := 12

  /** Debounce interval, in seconds. */
  const Delay: real := 0.5

  /** Proximity above this counts as a tap. */
  const TapProximity: int := 1500

  /** The current mode and the time of the last advance. */
  datatype Debounce = Debounce(mode: nat, lastPage: real)

  const Start: Debounce := Debounce(StartMode, 0.0)

  /** `mode += 1; mode %= count`. */
  function Next(mode: nat, count: nat): (m: nat)
    requires count > 0
    ensures m < count
    ensures mode + 1 < count ==> m == mode + 1
    ensures mode + 1 == count ==> m == 0
  {
    (mode + 1) % count
  }

  /** The advance condition: a tap, and more than `Delay` since the last advance. */
  predicate Triggered(s: Debounce, proximity: int, now: real)
  {
    proximity > TapProximity && now - s.lastPage > Delay
  }

  /** One iteration's mode update. The advance time changes exactly when the
      condition holds; the mode then steps once and lands in `0 .. count-1`;
      otherwise nothing changes. */
  function Advance(s: Debounce, proximity: int, now: real, count: nat): (t: Debounce)
    requires count > 0
    ensures t.lastPage != s.lastPage <==> Triggered(s, proximity, now)
    ensures Triggered(s, proximity, now) ==> t.lastPage == now && t.mode == Next(s.mode, count)
    ensures !Triggered(s, proximity, now) ==> t == s
  {
    if Triggered(s, proximity, now) then Debounce(Next(s.mode, count), now) else s
  }

  /** The proximity reading and clock of one loop iteration. */
  datatype Tap = Tap(proximity: int, now: real)

  /** The state after a run of iterations. */
  function Run(s: Debounce, taps: seq<Tap>, count: nat): Debounce
    requires count > 0
    decreases |taps|
  {
    if |taps| == 0 then s
    else Run(Advance(s, taps[0].proximity, taps[0].now, count), taps[1..], count)
  }

  /** How many iterations of the run advanced the mode. */
  function Advances(s: Debounce, taps: seq<Tap>, count: nat): nat
    requires count > 0
    decreases |taps|
  {
    if |taps| == 0 then 0
    else
      var t := Advance(s, taps[0].proximity, taps[0].now, count);
      (if Triggered(s, taps[0].proximity, taps[0].now) then 1 else 0) + Advances(t, taps[1..], count)
  }

  /** Applying `Next` `j` times. */
  function Iterate(mode: nat, j: nat, count: nat): nat
    requires count > 0
    decreases j
  {
    if j == 0 then mode else Iterate(Next(mode, count), j - 1, count)
  }

  /** Two taps within the debounce interval: if the first advanced the mode,
      the second leaves everything as it is. */
  lemma TwoTapsAdvanceOnce(s: Debounce, p1: int, t1: real, p2: int, t2: real, count: nat)
    requires count > 0 && t2 - t1 <= Delay
    ensures Triggered(s, p1, t1) ==>
      Advance(Advance(s, p1, t1, count), p2, t2, count) == Advance(s, p1, t1, count)
  {
  }

  /** No iteration advances while its clock is within `Delay` of the last advance. */
  lemma {:induction false} QuietWithinDelay(s: Debounce, taps: seq<Tap>, count: nat)
    requires count > 0
    requires forall i :: 0 <= i < |taps| ==> taps[i].now <= s.lastPage + Delay
    ensures Advances(s, taps, count) == 0
    ensures Run(s, taps, count) == s
    decreases |taps|
  {
    if |taps| > 0 {
      QuietWithinDelay(s, taps[1..], count);
    }
  }

  /** However many taps arrive, if all their clock readings fall within one
      interval of length `Delay`, the mode advances at most once. */
  lemma {:induction false} AtMostOneAdvancePerDelay(s: Debounce, taps: seq<Tap>, count: nat, from: real)
    requires count > 0
    requires forall i :: 0 <= i < |taps| ==> from <= taps[i].now <= from + Delay
    ensures Advances(s, taps, count) <= 1
    decreases |taps|
  {
    if |taps| > 0 {
      var t := Advance(s, taps[0].proximity, taps[0].now, count);
      if Triggered(s, taps[0].proximity, taps[0].now) {
        QuietWithinDelay(t, taps[1..], count);
      } else {
        AtMostOneAdvancePerDelay(t, taps[1..], count, from);
      }
    }
  }

  /** A run with no advance leaves the state alone; a run with an advance
      ends in a mode below `count`, whatever mode it started in. */
  lemma {:induction false} RunLandsBelowCount(s: Debounce, taps: seq<Tap>, count: nat)
    requires count > 0
    ensures Advances(s, taps, count) == 0 ==> Run(s, taps, count) == s
    ensures Advances(s, taps, count) > 0 ==> Run(s, taps, count).mode < count
    ensures s.mode < count ==> Run(s, taps, count).mode < count
    decreases |taps|
  {
    if |taps| > 0 {
      RunLandsBelowCount(Advance(s, taps[0].proximity, taps[0].now, count), taps[1..], count);
    }
  }

  /** As written: from the start mode 12 the first advance goes to 2, mode 10
      wraps to 0, and no advance ever yields 11 or 12. */
  lemma AsWrittenTransitions()
    ensures ModeCount == 11
    ensures Next(StartMode, ModeCount) == 2
    ensures Next(10, ModeCount) == 0
    ensures forall m: nat :: Next(m, ModeCount) != 11 && Next(m, ModeCount) != 12
  {
  }

  /** As written, after the first advance the program never returns to the
      "everything" mode (nor reaches noise mode 11): every state of every run
      from the start is either the untouched start state or below 11. */
  lemma EverythingModeLost(taps: seq<Tap>)
    ensures Run(Start, taps, ModeCount) == Start || Run(Start, taps, ModeCount).mode < 11
    ensures Advances(Start, taps, ModeCount) > 0 ==> Run(Start, taps, ModeCount).mode < 11
  {
    RunLandsBelowCount(Start, taps, ModeCount);
  }

  lemma ModShift(c: nat, j: nat)
    requires c > 0
    ensures (c + j) % c == j % c
  {
    var q, r := j / c, j % c;
    assert j == q * c + r;
    assert c + j == (q + 1) * c + r;
    ModUnique(c + j, c, q + 1, r);
  }

  lemma ModUnique(x: int, c: int, q: int, r: int)
    requires c > 0 && 0 <= r < c && x == q * c + r
    ensures x % c == r
  {
    var q', r' := x / c, x % c;
    assert x == q' * c + r';
    var d := q - q';
    assert d * c == r' - r;
    MulBound(d, c);
  }

  lemma MulBound(d: int, c: int)
    requires c > 0
    ensures d >= 1 ==> d * c >= c
    ensures d <= -1 ==> d * c <= -c
  {
  }

  /** Stepping `j` times from a mode below `count` is addition modulo `count`. */
  lemma {:induction false} IterateIsAddition(mode: nat, j: nat, count: nat)
    requires mode < count
    ensures Iterate(mode, j, count) == (mode + j) % count
    decreases j
  {
    if j > 0 {
      IterateIsAddition(Next(mode, count), j - 1, count);
      if mode + 1 == count {
        ModShift(count, j - 1);
      }
    }
  }

  /** As written, the `j`-th mode after the start (j >= 1) is `(j + 1) mod 11`. */
  lemma AsWrittenOrbit(j: nat)
    requires j >= 1
    ensures Iterate(StartMode, j, ModeCount) == (j + 1) % 11
    ensures Iterate(StartMode, j, ModeCount) < 11
  {
    IterateIsAddition(2, j - 1, ModeCount);
  }

  /** With the intended modulus 13, the k+1-th advance from the start shows
      mode k, so every mode 0..12 is visited, and 13 advances bring the
      display back to "everything". */
  lemma IntendedOrbit(k: nat)
    requires k < IntendedModeCount
    ensures Iterate(StartMode, k + 1, IntendedModeCount) == k
    ensures Iterate(StartMode, IntendedModeCount, IntendedModeCount) == StartMode
  {
    IterateIsAddition(StartMode, k + 1, IntendedModeCount);
    IterateIsAddition(StartMode, IntendedModeCount, IntendedModeCount);
  }
}

=== FILE: sensors.dfy ===
/**
 What the sensors report in one loop iteration. The drivers themselves are
 outside the model: each iteration is given the value every sensor would
 return if asked, and the particulate sensor's read may time out.
 */
module Sensors {

  datatype Option<T> = None | Some(value: T)

  /** Raw gas-sensor resistances, in ohms. */
  datatype Gas = Gas(oxidising: real, reducing: real, nh3: real)

  /** One particulate-sensor frame: mass concentrations (ug/m3) for 1.0,
      2.5 and 10 um, and particle counts per 0.1 l for 0.3 .. 10 um. */
  datatype Particulate = Particulate(
    pm1: real, pm25: real, pm10: real,
    count03: real, count05: real, count1: real, count25: real, count5: real, count10: real)

  /** The acoustic analyser's band energies and overall amplitude. */
  datatype NoiseProfile = NoiseProfile(low: real, mid: real, high: real, amp: real)

  /** Amplitudes in the 100-200, 500-600 and 1000-1200 Hz ranges. */
  datatype Bands = Bands(hz100: real, hz500: real, hz1000: real)

  /** Everything one iteration may read. `particulate` is `None` when the
      read times out (serial or frame timeout). */
  datatype Readings = Readings(
    proximity: int,
    cpu: real,
    temperature: real,
    pressure: real,
    humidity: real,
    lux: real,
    gas: Gas,
    particulate: Option<Particulate>,
    noise: NoiseProfile,
    bands: Bands)

  /** Below this proximity the light sensor is read. */
  const NearProximity: int := 10

  /** Ohms to kilo-ohms. */
  const GasDivisor: real := 1000.0

  /** Calibration multipliers of the noise readings. */
  const NoiseBandScale: real := 128.0
  const NoiseAmpScale: real := 64.0
  const FrequencyScale: real := 32.0

  /** The light value of an iteration: the lux reading when nothing is close
      to the sensor, the stand-in 1 otherwise (the lux reading is not used,
      and the program does not even ask for it). */
  function LightValue(proximity: int, lux: real): (l: real)
    ensures proximity < NearProximity ==> l == lux
    ensures proximity >= NearProximity ==> l == 1.0
  {
    if proximity < NearProximity then lux else 1.0
  }

  /** Whatever the lux sensor says, a close object gives the same light value. */
  lemma LightIgnoresLuxWhenNear(proximity: int, lux: real, lux': real)
    requires proximity >= NearProximity
    ensures LightValue(proximity, lux) == LightValue(proximity, lux')
  {
  }

  /** Python's `int()` on a float: truncation toward zero. */
  function Trunc(x: real): (n: int)
    ensures x >= 0.0 ==> n as real <= x < n as real + 1.0
    ensures x < 0.0 ==> n as real - 1.0 < x <= n as real
  {
    if x >= 0.0 then x.Floor else -((-x).Floor)
  }

  /** Truncation is symmetric about zero, unlike `Floor`. */
  lemma TruncOdd(x: real)
    ensures Trunc(-x) == -Trunc(x)
  {
  }
}

=== FILE: thresholds.dfy ===
/**
 Threshold classification for the all-variables grid view. Each tracked
 variable has four warning limits; a reading starts in palette slot 0 and
 every limit it strictly exceeds moves it to the slot after that limit,
 later limits overwriting earlier ones.
 */
module Thresholds {

  /** Warning limits per tracked variable, in the order of the variable list:
      temperature, pressure, humidity, light, oxidised, reduced, nh3, pm1,
      pm2.5, pm10. A `-1, -1` prefix switches the two low buckets off. */
  const Limits: seq<seq<real>> :=
    [[4.0, 18.0, 28.0, 35.0],
     [250.0, 650.0, 1013.25, 1015.0],
     [20.0, 30.0, 60.0, 70.0],
     [-1.0, -1.0, 30000.0, 100000.0],
     [-1.0, -1.0, 40.0, 50.0],
     [-1.0, -1.0, 450.0, 550.0],
     [-1.0, -1.0, 200.0, 300.0],
     [-1.0, -1.0, 50.0, 100.0],
     [-1.0, -1.0, 50.0, 100.0],
     [-1.0, -1.0, 50.0, 100.0]]

  datatype Rgb = Rgb(red: int, green: int, blue: int)

  /** Dangerously low, low, normal, high, dangerously high. */
  const Palette: seq<Rgb> :=
    [Rgb(0, 0, 255), Rgb(0, 255, 255), Rgb(0, 255, 0), Rgb(255, 255, 0), Rgb(255, 0, 0)]

  /** `k` is the classification of `value`: 0 when it exceeds no limit,
      otherwise one more than the LAST limit it strictly exceeds. */
  predicate Classifies(value: real, lim: seq<real>, k: nat)
  {
    && k <= |lim|
    && (k > 0 ==> value > lim[k - 1])
    && (forall j :: k <= j < |lim| ==> value <= lim[j])
  }

  /** Non-decreasing limits, as every row of the table is. */
  predicate Ascending(lim: seq<real>)
  {
    forall i, j :: 0 <= i <= j < |lim| ==> lim[i] <= lim[j]
  }

  /** The scan over the limits from index `j` on, with palette index `rgb`
      chosen so far; the requires are the scan's invariant. */
  function ScanFrom(value: real, lim: seq<real>, j: nat, rgb: nat): (r: nat)
    requires rgb <= j <= |lim|
    requires rgb > 0 ==> value > lim[rgb - 1]
    requires forall i :: rgb <= i < j ==> value <= lim[i]
    ensures Classifies(value, lim, r)
    decreases |lim| - j
  {
    if j == |lim| then rgb
    else ScanFrom(value, lim, j + 1, if value > lim[j] then j + 1 else rgb)
  }

  /** The palette index the grid view gives `value` against `lim`. */
  function Bucket(value: real, lim: seq<real>): (r: nat)
    ensures Classifies(value, lim, r)
  {
    ScanFrom(value, lim, 0, 0)
  }

  /** `value` lies in band `k` of `lim`: above limit `k-1` (if any) and at
      most limit `k` (if any), as the comment on the limits table describes. */
  predicate InBand(value: real, lim: seq<real>, k: nat)
  {
    && k <= |lim|
    && (k == 0 || value > lim[k - 1])
    && (k == |lim| || value <= lim[k])
  }

  /** The grid colour of reading `value` of variable `i`: palette entry `k`
      exactly when the value lies in band `k` of the variable's limits; in
      particular the "dangerously low" blue exactly when no limit is exceeded. */
  function Colour(i: nat, value: real): (c: Rgb)
    requires i < |Limits|
    ensures c in Palette
    ensures forall k :: 0 <= k < |Palette| ==> (c == Palette[k] <==> InBand(value, Limits[i], k))
    ensures c == Palette[0] <==> forall j :: 0 <= j < |Limits[i]| ==> value <= Limits[i][j]
  {
    ColourBands(i, value);
    Palette[Bucket(value, Limits[i])]
  }

  /** The palette entry of the bucket is the entry of the value's band. */
  lemma ColourBands(i: nat, value: real)
    requires i < |Limits|
    ensures Bucket(value, Limits[i]) < |Palette|
    ensures forall k :: 0 <= k < |Palette| ==>
      (Palette[Bucket(value, Limits[i])] == Palette[k] <==> InBand(value, Limits[i], k))
  {
    LimitsWellFormed();
    var b := Bucket(value, Limits[i]);
    forall k | 0 <= k < |Palette|
      ensures Palette[b] == Palette[k] <==> InBand(value, Limits[i], k)
    {
      BucketIsBand(value, Limits[i], k);
    }
  }

  /** The characterisation fixes the index: there is only one. */
  lemma ClassificationUnique(value: real, lim: seq<real>, k: nat, k': nat)
    requires Classifies(value, lim, k) && Classifies(value, lim, k')
    ensures k == k'
  {
  }

  /** With ascending limits, bucket `k` is exactly the half-open band
      `(lim[k-1], lim[k]]`, the lowest band unbounded below and the highest
      unbounded above: a value equal to a limit stays below it. */
  lemma BucketIsBand(value: real, lim: seq<real>, k: nat)
    requires Ascending(lim) && k <= |lim|
    ensures Bucket(value, lim) == k <==>
      (k == 0 || value > lim[k - 1]) && (k == |lim| || value <= lim[k])
  {
    var b := Bucket(value, lim);
    if (k == 0 || value > lim[k - 1]) && (k == |lim| || value <= lim[k]) {
      assert Classifies(value, lim, k) by {
        forall j | k <= j < |lim| ensures value <= lim[j] {
          assert lim[k] <= lim[j];
        }
      }
      ClassificationUnique(value, lim, b, k);
    }
  }

  /** A larger reading never gets a lower bucket, whatever the limits. */
  lemma BucketMonotone(v: real, w: real, lim: seq<real>)
    requires v <= w
    ensures Bucket(v, lim) <= Bucket(w, lim)
  {
  }

  /** The table has one row of four ascending limits per tracked variable,
      so every bucket has a palette colour. */
  lemma LimitsWellFormed()
    ensures |Limits| == 10
    ensures forall i :: 0 <= i < |Limits| ==> |Limits[i]| == 4 && Ascending(Limits[i])
    ensures |Palette| == 5
    ensures forall a, b :: 0 <= a < b < |Palette| ==> Palette[a] != Palette[b]
  {
  }

  /** The temperature row `[4, 18, 28, 35]` on the boundary cases. */
  lemma TemperatureExamples()
    ensures Bucket(-100.0, Limits[0]) == 0
    ensures Bucket(3.9, Limits[0]) == 0
    ensures Bucket(4.0, Limits[0]) == 0
    ensures Bucket(4.1, Limits[0]) == 1
    ensures Bucket(18.0, Limits[0]) == 1
    ensures Bucket(28.5, Limits[0]) == 3
    ensures Bucket(35.0, Limits[0]) == 3
    ensures Bucket(35.1, Limits[0]) == 4
  {
    LimitsWellFormed();
    BucketIsBand(-100.0, Limits[0], 0);
    BucketIsBand(3.9, Limits[0], 0);
    BucketIsBand(4.0, Limits[0], 0);
    BucketIsBand(4.1, Limits[0], 1);
    BucketIsBand(18.0, Limits[0], 1);
    BucketIsBand(28.5, Limits[0], 3);
    BucketIsBand(35.0, Limits[0], 3);
    BucketIsBand(35.1, Limits[0], 4);
  }

  /** Rows that start `-1, -1` never use bucket 1: a value above -1 is at
      least "normal", and any other value is bucket 0. */
  lemma SentinelRows(value: real, lim: seq<real>)
    requires |lim| == 4 && lim[0] == -1.0 && lim[1] == -1.0 && Ascending(lim)
    ensures value > -1.0 ==> Bucket(value, lim) >= 2
    ensures value <= -1.0 ==> Bucket(value, lim) == 0
    ensures Bucket(value, lim) != 1
  {
    if value <= -1.0 {
      BucketIsBand(value, lim, 0);
    }
  }
}

=== FILE: trace.dfy ===
/**
 What one loop iteration does, as an ordered list of observable events:
 metric gauges set, histories pushed, and frames handed to the display.
 */
module Trace {
  import Dashboard

  /** The 24 metric gauges, in declaration order. */
  datatype Gauge =
    | CpuTemp | RawTemp | AvgTemp | Pressure | Humidity | Light
    | Oxidised | Reduced | Nh3 | Pm1 | Pm25 | Pm10
    | NoiseLow | NoiseMid | NoiseHigh | Amp100To200 | Amp500To600 | Amp1000To1200
    | Pm03PerLitre | Pm05PerLitre | Pm1PerLitre | Pm25PerLitre | Pm5PerLitre | Pm10PerLitre

  /** The gauges fed from the particulate sensor. */
  predicate FromParticulate(g: Gauge)
  {
    g.Pm1? || g.Pm25? || g.Pm10? || g.Pm03PerLitre? || g.Pm05PerLitre?
    || g.Pm1PerLitre? || g.Pm25PerLitre? || g.Pm5PerLitre? || g.Pm10PerLitre?
  }

  datatype Event =
    | SetGauge(gauge: Gauge, value: real)
    | Store(variable: nat, value: real)
    | ShowGrid(cells: seq<Dashboard.Cell>)
    | ShowGraph(variable: nat, colours: seq<real>)
    | ShowWaveform

  /** An event with its payload dropped. */
  datatype Kind =
    | GaugeSet(gauge: Gauge)
    | Stored(variable: nat)
    | GridShown
    | GraphShown(variable: nat)
    | WaveformShown

  function KindOf(e: Event): Kind
  {
    match e
    case SetGauge(g, _) => GaugeSet(g)
    case Store(i, _) => Stored(i)
    case ShowGrid(_) => GridShown
    case ShowGraph(i, _) => GraphShown(i)
    case ShowWaveform => WaveformShown
  }

  function Kinds(tr: seq<Event>): (ks: seq<Kind>)
    ensures |ks| == |tr|
    ensures forall k :: 0 <= k < |tr| ==> ks[k] == KindOf(tr[k])
  {
    seq(|tr|, k requires 0 <= k < |tr| => KindOf(tr[k]))
  }

  lemma KindsAppend(a: seq<Event>, b: seq<Event>)
    ensures Kinds(a + b) == Kinds(a) + Kinds(b)
  {
  }

  /** How often events of kind `k` occur. */
  function Count(tr: seq<Event>, k: Kind): nat
  {
    multiset(Kinds(tr))[k]
  }

  /** What the events so far have left on the screen: the board with every
      push applied, and whether each grid frame drawn so far showed the
      board as it stood when the frame was drawn. */
  datatype Screen = Screen(board: Dashboard.Board, current: bool)

  /** One event: a push of a tracked variable is applied to the board; a
      grid frame stays current only if it shows the grid of the board. */
  function Step(s: Screen, e: Event): (s': Screen)
    requires Dashboard.Valid(s.board)
    ensures Dashboard.Valid(s'.board) && s'.board.cpuTemps == s.board.cpuTemps
  {
    var b := s.board;
    Screen(if e.Store? && e.variable < Dashboard.NumVariables then Dashboard.Save(b, e.variable, e.value) else b,
           s.current && (e.ShowGrid? ==> e.cells == Dashboard.Grid(b)))
  }

  function Play(s: Screen, tr: seq<Event>): (s': Screen)
    requires Dashboard.Valid(s.board)
    ensures Dashboard.Valid(s'.board) && s'.board.cpuTemps == s.board.cpuTemps
    decreases |tr|
  {
    if |tr| == 0 then s else Play(Step(s, tr[0]), tr[1..])
  }

  /** The board after the events of `tr`, in order. */
  function Replay(b: Dashboard.Board, tr: seq<Event>): Dashboard.Board
    requires Dashboard.Valid(b)
  {
    Play(Screen(b, true), tr).board
  }

  /** Played from `b`, the pushes of `tr` leave `b'`, and every grid frame
      of `tr` shows the board as it stood at that point. */
  predicate Draws(b: Dashboard.Board, tr: seq<Event>, b': Dashboard.Board)
    requires Dashboard.Valid(b)
  {
    Play(Screen(b, true), tr) == Screen(b', true)
  }

  lemma {:induction false} PlayAppend(s: Screen, x: seq<Event>, y: seq<Event>)
    requires Dashboard.Valid(s.board)
    ensures Play(s, x + y) == Play(Play(s, x), y)
    decreases |x|
  {
    if |x| > 0 {
      assert (x + y)[0] == x[0];
      assert (x + y)[1..] == x[1..] + y;
      PlayAppend(Step(s, x[0]), x[1..], y);
    } else {
      assert x + y == y;
    }
  }

  /** Two pieces, the second played from where the first ends. */
  lemma Chain(b: Dashboard.Board, b1: Dashboard.Board, b2: Dashboard.Board, x: seq<Event>, y: seq<Event>)
    requires Dashboard.Valid(b) && Dashboard.Valid(b1) && Draws(b, x, b1) && Draws(b1, y, b2)
    ensures Draws(b, x + y, b2)
  {
    PlayAppend(Screen(b, true), x, y);
  }

  /** Once a frame has been stale, the screen is not current again. */
  lemma {:induction false} StaysStale(s: Screen, tr: seq<Event>)
    requires Dashboard.Valid(s.board) && !s.current
    ensures !Play(s, tr).current
    decreases |tr|
  {
    if |tr| > 0 {
      StaysStale(Step(s, tr[0]), tr[1..]);
    }
  }

  /** Every grid frame of `tr` shows the board as it stands at that point:
      `b` with exactly the pushes that come before the frame applied. */
  predicate GridsCurrent(b: Dashboard.Board, tr: seq<Event>)
    requires Dashboard.Valid(b)
  {
    forall k :: 0 <= k < |tr| && tr[k].ShowGrid? ==> tr[k].cells == Dashboard.Grid(Replay(b, tr[..k]))
  }

  /** A trace played to a current screen has every frame current. */
  lemma {:induction false} CurrentFrames(b: Dashboard.Board, tr: seq<Event>)
    requires Dashboard.Valid(b) && Play(Screen(b, true), tr).current
    ensures GridsCurrent(b, tr)
    decreases |tr|
  {
    if |tr| > 0 {
      var s1 := Step(Screen(b, true), tr[0]);
      if !s1.current {
        StaysStale(s1, tr[1..]);
      }
      assert s1 == Screen(s1.board, true);
      CurrentFrames(s1.board, tr[1..]);
      forall k | 0 <= k < |tr| && tr[k].ShowGrid?
        ensures tr[k].cells == Dashboard.Grid(Replay(b, tr[..k]))
      {
        if k == 0 {
          assert tr[..0] == [];
        } else {
          assert tr[k] == tr[1..][k - 1];
          assert tr[..k][0] == tr[0];
          assert tr[..k][1..] == tr[1..][..k - 1];
        }
      }
    }
  }

  /** A trace whose kinds are all gauge sets holds only gauge sets. */
  lemma GaugeKinds(tr: seq<Event>)
    requires forall k :: 0 <= k < |tr| ==> Kinds(tr)[k].GaugeSet?
    ensures forall k :: 0 <= k < |tr| ==> tr[k].SetGauge?
  {
    forall k | 0 <= k < |tr|
      ensures tr[k].SetGauge?
    {
      assert Kinds(tr)[k] == KindOf(tr[k]);
    }
  }

  /** A trace of gauge sets only: the board is untouched and no frame drawn. */
  lemma {:induction false} GaugesOnly(b: Dashboard.Board, tr: seq<Event>)
    requires Dashboard.Valid(b)
    requires forall k :: 0 <= k < |tr| ==> tr[k].SetGauge?
    ensures Draws(b, tr, b)
    decreases |tr|
  {
    if |tr| > 0 {
      GaugesOnly(b, tr[1..]);
    }
  }
}
